=== FILE: README.md ===
# Eclipse preference migrations, copy undo and spelling problems in Dafny

This project models three small pieces of logic from an Eclipse Platform UI
fork, and proves properties of the model.

1. **Undo of a resource copy.** This is the bookkeeping of
   `CopyResourcesOperation` (module `CopyResources`).
   - The three constructors record the original targets, a snapshot of each
     original and the original destination.
   - `doUndo` deletes the copies and recreates what they overwrote. It then
     forgets the snapshots and returns to the original targets and destination.
   - `updateResourceChangeDescriptionFactory` declares these changes in
     advance.
   - The execute, undo and redo checks are chained, and a missing copy marks
     the operation invalid for good.

   The workspace is a map from path to content. A resource description is a
   snapshot of one path. `WorkspaceUndoUtil.delete` and `recreate` are flat
   functions on that map. The base-class behaviour that is not part of this
   class enters as parameters: `moveOrCopy`, `getDestinationPath` and the
   base-class status checks.
2. **The pure logic in `JavaPlugin`.** Each preference value is an input and
   an output string, and each flag is a boolean.
   - `setTypeFilterPreferences` (module `JavaPluginTypeFilters`) is a one-time
     migration that adds new type filters to `;`-separated lists. It is built
     on Java's `String.split`, `LinkedHashSet` and `Collectors.joining`
     (modules `JavaStrings` and `OrderedSets`).
   - `initializeCodeAssistCategoryDisabled` (module `JavaPluginCodeAssist`)
     disables a new content-assist category once. It works on `\0`-tokenised
     lists, with `StringTokenizer` and `Integer.parseInt`/`toString` semantics.
   - `logRepeatedMessage` (module `JavaPluginRepeatedMessages`) is a rate
     limiter over an access-ordered `LinkedHashMap`. The map evicts its eldest
     entry once it reaches 20 entries. The clock is a parameter, and the
     logged text is a result.
   - `createOrUpdateWorkingSet` (module `JavaPluginWorkingSets`) works on the
     working-set manager, modelled as a map from name to working set.
3. **`CoreSpellingProblem`** (module `CoreSpellingProblem`) is a value object.
   Its `getArguments` cuts the line around the misspelled word out of the
   document, and leaves a part empty when a document lookup fails.

## Model

Paths abbreviated in the rows below:
- `CopyResourcesOperation.java` is
  `bundles/org.eclipse.ui.ide/src/org/eclipse/ui/ide/undo/CopyResourcesOperation.java`.
- `JavaPlugin.java` is
  `bundles/org.eclipse.ui.workbench.texteditor/src/org/eclipse/ui/internal/texteditor/spelling/util/JavaPlugin.java`.
- `CoreSpellingProblem.java` is
  `bundles/org.eclipse.ui.workbench.texteditor/src/org/eclipse/ui/internal/texteditor/spelling/impl/CoreSpellingProblem.java`.

The table itself gives the full paths.

| member | source | states |
|---|---|---|
| CopyResources.FromResource | bundles/org.eclipse.ui.ide/src/org/eclipse/ui/ide/undo/CopyResourcesOperation.java:267 | a snapshot names the resource's path and holds its content exactly when the resource exists |
| CopyResources.Delete | bundles/org.eclipse.ui.ide/src/org/eclipse/ui/ide/undo/CopyResourcesOperation.java:140-141 | deleting the targets removes exactly their paths and keeps every other path's content |
| CopyResources.Recreate | bundles/org.eclipse.ui.ide/src/org/eclipse/ui/ide/undo/CopyResourcesOperation.java:143-144 | recreating writes every snapshot with content back; for each path the last such snapshot wins, and untouched paths keep their content |
| CopyResources.SetOriginalResources | bundles/org.eclipse.ui.ide/src/org/eclipse/ui/ide/undo/CopyResourcesOperation.java:263-269 | records the originals with one snapshot per original, of the same length, entry i naming original i; nothing else changes |
| CopyResources.NewSingle | bundles/org.eclipse.ui.ide/src/org/eclipse/ui/ide/undo/CopyResourcesOperation.java:63-68 | the single-resource constructor targets `[resource]` at `[newPath]` and records both as originals, with the one-element path array as the original destination; the result is well formed and valid |
| CopyResources.NewToDestination | bundles/org.eclipse.ui.ide/src/org/eclipse/ui/ide/undo/CopyResourcesOperation.java:83-88 | the shared-destination constructor records the destination as the original destination and leaves the path array unset |
| CopyResources.NewToPaths | bundles/org.eclipse.ui.ide/src/org/eclipse/ui/ide/undo/CopyResourcesOperation.java:105-110 | the path-array constructor records the path array as the original destination paths and leaves the shared destination unset |
| CopyResources.ConstructorsRecordOriginals | bundles/org.eclipse.ui.ide/src/org/eclipse/ui/ide/undo/CopyResourcesOperation.java:63-110 | each constructor's current targets and destination equal the originals it records |
| CopyResources.DoExecute | bundles/org.eclipse.ui.ide/src/org/eclipse/ui/ide/undo/CopyResourcesOperation.java:120-123 | execute is the base class's move-or-copy with the copy flag (`false`) and nothing more |
| CopyResources.DoUndo | bundles/org.eclipse.ui.ide/src/org/eclipse/ui/ide/undo/CopyResourcesOperation.java:134-157 | the snapshots are cleared and the targets are the originals; the destination is the original destination with the path array unset, or otherwise the original paths with the destination unset; no other field changes; a path survives exactly when a snapshot restores it or it was not a target |
| CopyResources.UndoKeepsWellFormed | bundles/org.eclipse.ui.ide/src/org/eclipse/ui/ide/undo/CopyResourcesOperation.java:145-155 | undo keeps exactly one destination kind set, and one snapshot per original |
| CopyResources.UndoResetsToConstruction | bundles/org.eclipse.ui.ide/src/org/eclipse/ui/ide/undo/CopyResourcesOperation.java:145-155 | whatever execution did to targets, destination and snapshots, undo gives back the operation exactly as the constructor built it |
| CopyResources.UndoRestoresOverwritten | bundles/org.eclipse.ui.ide/src/org/eclipse/ui/ide/undo/CopyResourcesOperation.java:139-144 | because delete runs before recreate, a path that is both a copy and an overwritten resource ends up with the overwritten content |
| CopyResources.SnapshotsRestore | bundles/org.eclipse.ui.ide/src/org/eclipse/ui/ide/undo/CopyResourcesOperation.java:258-269 | deleting the originals and recreating them from the recorded snapshots gives every original path back its content at snapshot time, and keeps paths that were empty empty |
| CopyResources.LatestOfSnapshots | bundles/org.eclipse.ui.ide/src/org/eclipse/ui/ide/undo/CopyResourcesOperation.java:265-268 | the snapshot list determines each original path's content at snapshot time |
| CopyResources.DeclaredChanges | bundles/org.eclipse.ui.ide/src/org/eclipse/ui/ide/undo/CopyResourcesOperation.java:165-188 | for undo, the number of declared changes is the number of targets plus snapshots; otherwise it is one per target |
| CopyResources.UpdateResourceChangeDescriptionFactory | bundles/org.eclipse.ui.ide/src/org/eclipse/ui/ide/undo/CopyResourcesOperation.java:165-188 | the loops declare exactly the reference changes: for undo, one delete per target in order and then one create per snapshot; otherwise one copy per target to `getDestinationPath(resource, i)`. The result is true iff at least one change was declared |
| CopyResources.UndoDeclarationCoversUndo | bundles/org.eclipse.ui.ide/src/org/eclipse/ui/ide/undo/CopyResourcesOperation.java:134-188 | every path whose presence or content undo alters is declared in advance as deleted or created |
| CopyResources.FirstFailure | bundles/org.eclipse.ui.ide/src/org/eclipse/ui/ide/undo/CopyResourcesOperation.java:197-257 | a chain of checks yields its first failing status, every check before it being OK; when every check passes it yields the last status, which is OK |
| CopyResources.ComputeExecutionStatus | bundles/org.eclipse.ui.ide/src/org/eclipse/ui/ide/undo/CopyResourcesOperation.java:197-203 | the execution check is the first failure of the chain "base check, then move-or-copy check" |
| CopyResources.ComputeRedoableStatus | bundles/org.eclipse.ui.ide/src/org/eclipse/ui/ide/undo/CopyResourcesOperation.java:251-257 | the redo check is the first failure of the chain "base check, then move-or-copy check" |
| CopyResources.MarkInvalid | bundles/org.eclipse.ui.ide/src/org/eclipse/ui/ide/undo/CopyResourcesOperation.java:226 | marking invalid clears the valid flag and changes nothing else |
| CopyResources.ComputeUndoableStatus | bundles/org.eclipse.ui.ide/src/org/eclipse/ui/ide/undo/CopyResourcesOperation.java:213-242 | the undo status is the first failure of the chain: base check, restore information intact (originals recorded and every copy at their indices exists), delete check, then the create check only when there are snapshots. The operation is marked invalid exactly when the base check passed and a copy is missing |
| CopyResources.CreateStatusConsultedOnlyWhenNeeded | bundles/org.eclipse.ui.ide/src/org/eclipse/ui/ide/undo/CopyResourcesOperation.java:231-239 | the create check cannot affect the result unless the base check, the restore information and the delete check all pass and there is a snapshot |
| CopyResources.SuperFailureShortCircuits | bundles/org.eclipse.ui.ide/src/org/eclipse/ui/ide/undo/CopyResourcesOperation.java:214-217 | a failing base check is returned unchanged, and the operation is untouched |
| CopyResources.InvalidIsAbsorbing | bundles/org.eclipse.ui.ide/src/org/eclipse/ui/ide/undo/CopyResourcesOperation.java:213-242 | an invalid operation stays invalid through the undo check and through undo |
| CopyResources.InvalidatedIffTargetMissing | bundles/org.eclipse.ui.ide/src/org/eclipse/ui/ide/undo/CopyResourcesOperation.java:221-229 | within this class's own code, a valid operation is invalidated iff the base check passed, originals are recorded and some copy at their indices is missing; when that happens the status reports lost restore information |
| JavaStrings.Fields | bundles/org.eclipse.ui.workbench.texteditor/src/org/eclipse/ui/internal/texteditor/spelling/util/JavaPlugin.java:479 | a string has at least one field; no field holds the separator; the last field is empty iff the string is empty or ends with the separator |
| JavaStrings.JoinFields | bundles/org.eclipse.ui.workbench.texteditor/src/org/eclipse/ui/internal/texteditor/spelling/util/JavaPlugin.java:479-481 | joining a string's fields gives the string back |
| JavaStrings.FieldsJoin | bundles/org.eclipse.ui.workbench.texteditor/src/org/eclipse/ui/internal/texteditor/spelling/util/JavaPlugin.java:479-481 | the fields of a joined non-empty list of separator-free strings are the list |
| JavaStrings.FieldsAppendPlain | bundles/org.eclipse.ui.workbench.texteditor/src/org/eclipse/ui/internal/texteditor/spelling/util/JavaPlugin.java:515 | appending separator-free text extends only the last field |
| JavaStrings.JoinAppend | bundles/org.eclipse.ui.workbench.texteditor/src/org/eclipse/ui/internal/texteditor/spelling/util/JavaPlugin.java:515 | for a non-empty `b`, `join(a) + ";" + join(b)` is the join of `a` followed by `b`, where an empty `a` counts as one empty field |
| JavaStrings.JoinEnds | bundles/org.eclipse.ui.workbench.texteditor/src/org/eclipse/ui/internal/texteditor/spelling/util/JavaPlugin.java:481 | `Collectors.joining` of no parts is empty; otherwise the result starts with the first part and ends with the last |
| JavaStrings.Split | bundles/org.eclipse.ui.workbench.texteditor/src/org/eclipse/ui/internal/texteditor/spelling/util/JavaPlugin.java:479 | `split(";")` gives separator-free pieces; `""` gives `[""]`; otherwise the result is empty or ends in a non-empty piece |
| JavaStrings.SplitIsFieldsPrefix | bundles/org.eclipse.ui.workbench.texteditor/src/org/eclipse/ui/internal/texteditor/spelling/util/JavaPlugin.java:499 | `split` keeps the fields in order and drops only trailing empty ones, so every non-empty field survives |
| JavaStrings.SplitJoin | bundles/org.eclipse.ui.workbench.texteditor/src/org/eclipse/ui/internal/texteditor/spelling/util/JavaPlugin.java:479-481 | splitting the join of separator-free strings ending in a non-empty one gives the list back |
| JavaStrings.JoinSplit | bundles/org.eclipse.ui.workbench.texteditor/src/org/eclipse/ui/internal/texteditor/spelling/util/JavaPlugin.java:479-481 | joining the split of a string that does not end with the separator gives the string back |
| JavaStrings.NonEmpty | bundles/org.eclipse.ui.workbench.texteditor/src/org/eclipse/ui/internal/texteditor/spelling/util/JavaPlugin.java:412-415 | holds only non-empty elements of the list, and every non-empty element of it |
| JavaStrings.NonEmptyOfNonEmpty | bundles/org.eclipse.ui.workbench.texteditor/src/org/eclipse/ui/internal/texteditor/spelling/util/JavaPlugin.java:412-415 | a list without empty strings is kept whole, and a lone empty string is dropped |
| JavaStrings.NonEmptyConcat | bundles/org.eclipse.ui.workbench.texteditor/src/org/eclipse/ui/internal/texteditor/spelling/util/JavaPlugin.java:412-415 | the non-empty elements of a concatenation are those of each part, in order; with the previous row this fixes the tokens and their order |
| JavaStrings.Tokens | bundles/org.eclipse.ui.workbench.texteditor/src/org/eclipse/ui/internal/texteditor/spelling/util/JavaPlugin.java:412-415 | `StringTokenizer` tokens are non-empty and free of the delimiter |
| JavaStrings.TokensOfEmpty | bundles/org.eclipse.ui.workbench.texteditor/src/org/eclipse/ui/internal/texteditor/spelling/util/JavaPlugin.java:410-418 | an empty list value has no tokens, so the category is then not disabled |
| JavaStrings.TokensAppend | bundles/org.eclipse.ui.workbench.texteditor/src/org/eclipse/ui/internal/texteditor/spelling/util/JavaPlugin.java:419 | appending `t + "\0"` to a terminated list adds exactly the token `t` |
| JavaStrings.ParseInt | bundles/org.eclipse.ui.workbench.texteditor/src/org/eclipse/ui/internal/texteditor/spelling/util/JavaPlugin.java:428 | `Integer.parseInt` accepts an optional `+` or `-` followed by at least one digit; it yields the digits' value, negated after `-`, when that fits in 32 bits, and nothing otherwise |
| JavaStrings.DigitsOfNat | bundles/org.eclipse.ui.workbench.texteditor/src/org/eclipse/ui/internal/texteditor/spelling/util/JavaPlugin.java:431 | the decimal digits of `n` have the value `n` |
| JavaStrings.IntToString | bundles/org.eclipse.ui.workbench.texteditor/src/org/eclipse/ui/internal/texteditor/spelling/util/JavaPlugin.java:431 | `Integer.toString(n)` is a digit string of value `n` for `n >= 0`, and `-` followed by a digit string of value `-n` otherwise; the digits never start with `0` except for zero (printed as `NatToString(0)`, which is `"0"` by `NatToStringCanonical`) |
| JavaStrings.NatToStringCanonical | bundles/org.eclipse.ui.workbench.texteditor/src/org/eclipse/ui/internal/texteditor/spelling/util/JavaPlugin.java:431 | the printed digits of a natural number start with `0` iff it is zero, and zero prints as `"0"` |
| JavaStrings.ParseIntToString | bundles/org.eclipse.ui.workbench.texteditor/src/org/eclipse/ui/internal/texteditor/spelling/util/JavaPlugin.java:428-431 | parsing the printed form of any 32-bit integer gives it back |
| JavaStrings.IntToStringChars | bundles/org.eclipse.ui.workbench.texteditor/src/org/eclipse/ui/internal/texteditor/spelling/util/JavaPlugin.java:431 | a printed integer holds only digits and `-` |
| OrderedSets.Add | bundles/org.eclipse.ui.workbench.texteditor/src/org/eclipse/ui/internal/texteditor/spelling/util/JavaPlugin.java:464-469 | `LinkedHashSet.add` contains the old elements plus the new one, keeps the old order as a prefix, and keeps elements unique |
| OrderedSets.AddAll | bundles/org.eclipse.ui.workbench.texteditor/src/org/eclipse/ui/internal/texteditor/spelling/util/JavaPlugin.java:479-480 | `addAll` gives the union, with the old order as a prefix and elements unique |
| OrderedSets.AddAllSnoc | bundles/org.eclipse.ui.workbench.texteditor/src/org/eclipse/ui/internal/texteditor/spelling/util/JavaPlugin.java:479-480 | `addAll` of a list adds its elements one by one in list order: adding `ys + [y]` is adding `ys`, then `y` |
| OrderedSets.AddAllAppendsMissing | bundles/org.eclipse.ui.workbench.texteditor/src/org/eclipse/ui/internal/texteditor/spelling/util/JavaPlugin.java:479-480 | `addAll` of a duplicate-free list appends exactly the elements not yet present, in the list's order, after the old elements |
| OrderedSets.Dedup | bundles/org.eclipse.ui.workbench.texteditor/src/org/eclipse/ui/internal/texteditor/spelling/util/JavaPlugin.java:479 | filling a `LinkedHashSet` from a list holds each element of the list exactly once |
| OrderedSets.DedupSnoc | bundles/org.eclipse.ui.workbench.texteditor/src/org/eclipse/ui/internal/texteditor/spelling/util/JavaPlugin.java:479 | filling from `xs + [x]` is filling from `xs` and then adding `x`, so the set keeps first occurrences in list order |
| OrderedSets.RemoveAll | bundles/org.eclipse.ui.workbench.texteditor/src/org/eclipse/ui/internal/texteditor/spelling/util/JavaPlugin.java:507-511 | `removeAll` keeps exactly the elements not removed, in their order (a subsequence), keeps elements unique and never grows |
| OrderedSets.AddAllFresh | bundles/org.eclipse.ui.workbench.texteditor/src/org/eclipse/ui/internal/texteditor/spelling/util/JavaPlugin.java:479-480 | adding only new elements appends them in order |
| OrderedSets.DedupOfDistinct | bundles/org.eclipse.ui.workbench.texteditor/src/org/eclipse/ui/internal/texteditor/spelling/util/JavaPlugin.java:479 | filling a set from a list without repeats keeps the list |
| JavaPluginTypeFilters.AdditionsWellFormed | bundles/org.eclipse.ui.workbench.texteditor/src/org/eclipse/ui/internal/texteditor/spelling/util/JavaPlugin.java:464-474 | the built-in additions are distinct and hold no `;` |
| JavaPluginTypeFilters.AdditionsNonEmpty | bundles/org.eclipse.ui.workbench.texteditor/src/org/eclipse/ui/internal/texteditor/spelling/util/JavaPlugin.java:464-474 | no built-in addition is empty, and no enabled addition is one of the two filters removed from the current enabled list |
| JavaPluginTypeFilters.FilterSet | bundles/org.eclipse.ui.workbench.texteditor/src/org/eclipse/ui/internal/texteditor/spelling/util/JavaPlugin.java:497-505 | a value read through `split(";")` into a `LinkedHashSet` holds exactly the split pieces, each once |
| JavaPluginTypeFilters.MergedDefault | bundles/org.eclipse.ui.workbench.texteditor/src/org/eclipse/ui/internal/texteditor/spelling/util/JavaPlugin.java:476-490 | the merged default starts with the old default's filters in their order and holds exactly those and the additions, each once |
| JavaPluginTypeFilters.MergedAppendsMissing | bundles/org.eclipse.ui.workbench.texteditor/src/org/eclipse/ui/internal/texteditor/spelling/util/JavaPlugin.java:476-490 | for distinct additions, the merged default is the old default's filters followed by the additions missing from them, in their order |
| JavaPluginTypeFilters.NewDefault | bundles/org.eclipse.ui.workbench.texteditor/src/org/eclipse/ui/internal/texteditor/spelling/util/JavaPlugin.java:476-490 | read back field by field, the new default string is the merged list |
| JavaPluginTypeFilters.NewDefaultHoldsAdditions | bundles/org.eclipse.ui.workbench.texteditor/src/org/eclipse/ui/internal/texteditor/spelling/util/JavaPlugin.java:476-490 | every built-in addition is a piece of the new default read through `split(";")` |
| JavaPluginTypeFilters.CurrentEnabled | bundles/org.eclipse.ui.workbench.texteditor/src/org/eclipse/ui/internal/texteditor/spelling/util/JavaPlugin.java:497-501 | the current enabled set is the split value without `org.graalvm.*` and `java.awt.*` |
| JavaPluginTypeFilters.CurrentDisabled | bundles/org.eclipse.ui.workbench.texteditor/src/org/eclipse/ui/internal/texteditor/spelling/util/JavaPlugin.java:503-505 | the current disabled set is exactly the split pieces of the value, each once |
| JavaPluginTypeFilters.ToAdd | bundles/org.eclipse.ui.workbench.texteditor/src/org/eclipse/ui/internal/texteditor/spelling/util/JavaPlugin.java:507-511 | an addition remains to be added iff it is in neither current set, the enabled one checked after the removals; the remaining additions keep their order |
| JavaPluginTypeFilters.NothingToAdd | bundles/org.eclipse.ui.workbench.texteditor/src/org/eclipse/ui/internal/texteditor/spelling/util/JavaPlugin.java:507-511 | nothing remains to be added when every addition is already in one of the current sets |
| JavaPluginTypeFilters.Extend | bundles/org.eclipse.ui.workbench.texteditor/src/org/eclipse/ui/internal/texteditor/spelling/util/JavaPlugin.java:514-515 | the rewritten value (`joined current + ";" + joined additions`, used for both lists) reads back field by field as the current filters, or one empty field when there are none, followed by the additions |
| JavaPluginTypeFilters.SetTypeFilterPreferences | bundles/org.eclipse.ui.workbench.texteditor/src/org/eclipse/ui/internal/texteditor/spelling/util/JavaPlugin.java:463-527 | the defaults are re-merged on every run; the flag ends up set; an already migrated run leaves both current values alone; a current value changes only on a first run where something remains to be added |
| JavaPluginTypeFilters.NewDefaultsAreMerged | bundles/org.eclipse.ui.workbench.texteditor/src/org/eclipse/ui/internal/texteditor/spelling/util/JavaPlugin.java:476-494 | read back field by field, both new defaults are the merged lists, migrated or not |
| JavaPluginTypeFilters.RewrittenEnabled | bundles/org.eclipse.ui.workbench.texteditor/src/org/eclipse/ui/internal/texteditor/spelling/util/JavaPlugin.java:513-517 | a rewritten enabled value holds the cleaned current filters, then the missing additions, none twice |
| JavaPluginTypeFilters.RewrittenDisabled | bundles/org.eclipse.ui.workbench.texteditor/src/org/eclipse/ui/internal/texteditor/spelling/util/JavaPlugin.java:519-523 | a rewritten disabled value holds the current disabled filters, then the missing additions, none twice |
| JavaPluginTypeFilters.EnabledKeeps | bundles/org.eclipse.ui.workbench.texteditor/src/org/eclipse/ui/internal/texteditor/spelling/util/JavaPlugin.java:496-517 | after a first run the enabled value still holds every cleaned current filter and every missing enabled addition |
| JavaPluginTypeFilters.DisabledKeeps | bundles/org.eclipse.ui.workbench.texteditor/src/org/eclipse/ui/internal/texteditor/spelling/util/JavaPlugin.java:503-523 | after a first run the disabled value still holds every current disabled filter and every missing disabled addition |
| JavaPluginTypeFilters.AdditionsPlaced | bundles/org.eclipse.ui.workbench.texteditor/src/org/eclipse/ui/internal/texteditor/spelling/util/JavaPlugin.java:507-523 | after a first run every built-in filter is in one of the two current values: an addition is never appended when it already appears in either list, and never lost |
| JavaPluginTypeFilters.SecondRunKeepsCurrentValues | bundles/org.eclipse.ui.workbench.texteditor/src/org/eclipse/ui/internal/texteditor/spelling/util/JavaPlugin.java:492-494 | a second run leaves both current values as the first run wrote them |
| JavaPluginTypeFilters.MergeSettles | bundles/org.eclipse.ui.workbench.texteditor/src/org/eclipse/ui/internal/texteditor/spelling/util/JavaPlugin.java:476-490 | re-merging into a merged default that does not end in an empty filter changes nothing |
| JavaPluginTypeFilters.SecondRunIsIdentity | bundles/org.eclipse.ui.workbench.texteditor/src/org/eclipse/ui/internal/texteditor/spelling/util/JavaPlugin.java:463-527 | with such defaults a second run changes nothing at all |
| JavaPluginTypeFilters.UnsetEnabledNeedsNothing | bundles/org.eclipse.ui.workbench.texteditor/src/org/eclipse/ui/internal/texteditor/spelling/util/JavaPlugin.java:478-513 | an enabled value that reads as its new default, as one the user never set does after `setDefault`, already holds every enabled addition, so none remains to be added |
| JavaPluginTypeFilters.UnsetDisabledNeedsNothing | bundles/org.eclipse.ui.workbench.texteditor/src/org/eclipse/ui/internal/texteditor/spelling/util/JavaPlugin.java:486-519 | the same for a disabled value that reads as its new default |
| JavaPluginTypeFilters.UnsetPreferencesUnchanged | bundles/org.eclipse.ui.workbench.texteditor/src/org/eclipse/ui/internal/texteditor/spelling/util/JavaPlugin.java:476-523 | a value that reads as its new default is left unchanged by the migration, for each of the two lists |
| JavaPluginCodeAssist.InitializeCodeAssistCategoryDisabled | bundles/org.eclipse.ui.workbench.texteditor/src/org/eclipse/ui/internal/texteditor/spelling/util/JavaPlugin.java:404-456 | a migrated category changes nothing; the flag is always set afterwards; the excluded list changes iff the category was not migrated, the list has tokens and it lacks `id`, and then it gains `id + "\0"` while the order list gains `id:rank\0` for each default rank of `id`, in order; the order list changes only together with the excluded list |
| JavaPluginCodeAssist.InitializeIdempotent | bundles/org.eclipse.ui.workbench.texteditor/src/org/eclipse/ui/internal/texteditor/spelling/util/JavaPlugin.java:405-408 | a second call for the same category changes nothing |
| JavaPluginCodeAssist.ExcludedGainsId | bundles/org.eclipse.ui.workbench.texteditor/src/org/eclipse/ui/internal/texteditor/spelling/util/JavaPlugin.java:417-420 | on a terminated excluded list the tokens gain exactly `id`, or stay the same |
| JavaPluginCodeAssist.ParseOrderEntry | bundles/org.eclipse.ui.workbench.texteditor/src/org/eclipse/ui/internal/texteditor/spelling/util/JavaPlugin.java:426-428 | an entry parses iff it has at least two `:` tokens and `Integer.parseInt` accepts the second; the key is the first token, non-empty and free of `:`, and the rank is the parsed second token, in the 32-bit range |
| JavaPluginCodeAssist.AppendMatchingRanks | bundles/org.eclipse.ui.workbench.texteditor/src/org/eclipse/ui/internal/texteditor/spelling/util/JavaPlugin.java:424-434 | the loop appends exactly `id + ":" + rank + "\0"` for each default entry whose key is `id`, in the default's order, to the current order value, and nothing else |
| JavaPluginCodeAssist.AppendMatchingRanksTokens | bundles/org.eclipse.ui.workbench.texteditor/src/org/eclipse/ui/internal/texteditor/spelling/util/JavaPlugin.java:424-434 | the loop adds one `id:rank` token per default entry whose key is `id`, in the default's order |
| JavaPluginCodeAssist.OrderGainsRanks | bundles/org.eclipse.ui.workbench.texteditor/src/org/eclipse/ui/internal/texteditor/spelling/util/JavaPlugin.java:418-435 | when a category is disabled, the order list's tokens gain exactly its default ranks |
| JavaPluginCodeAssist.OrderEntryIsToken | bundles/org.eclipse.ui.workbench.texteditor/src/org/eclipse/ui/internal/texteditor/spelling/util/JavaPlugin.java:431 | a written entry is one non-empty token |
| JavaPluginCodeAssist.OrderEntryReparses | bundles/org.eclipse.ui.workbench.texteditor/src/org/eclipse/ui/internal/texteditor/spelling/util/JavaPlugin.java:426-431 | a written `id:rank` entry parses back to the same key and rank |
| JavaPluginRepeatedMessages.Lookup | bundles/org.eclipse.ui.workbench.texteditor/src/org/eclipse/ui/internal/texteditor/spelling/util/JavaPlugin.java:228-229 | a lookup finds a time iff some entry has the message, and the time belongs to such an entry |
| JavaPluginRepeatedMessages.LookupEntry | bundles/org.eclipse.ui.workbench.texteditor/src/org/eclipse/ui/internal/texteditor/spelling/util/JavaPlugin.java:98 | in a map, the entry of a message determines its lookup |
| JavaPluginRepeatedMessages.Without | bundles/org.eclipse.ui.workbench.texteditor/src/org/eclipse/ui/internal/texteditor/spelling/util/JavaPlugin.java:98 | removing a key keeps exactly the other entries, in their order |
| JavaPluginRepeatedMessages.WithoutKeyed | bundles/org.eclipse.ui.workbench.texteditor/src/org/eclipse/ui/internal/texteditor/spelling/util/JavaPlugin.java:98 | removing a key keeps keys unique |
| JavaPluginRepeatedMessages.WithoutAbsent | bundles/org.eclipse.ui.workbench.texteditor/src/org/eclipse/ui/internal/texteditor/spelling/util/JavaPlugin.java:98 | removing an absent key changes nothing |
| JavaPluginRepeatedMessages.WithoutPresent | bundles/org.eclipse.ui.workbench.texteditor/src/org/eclipse/ui/internal/texteditor/spelling/util/JavaPlugin.java:98 | removing a present key drops exactly one entry |
| JavaPluginRepeatedMessages.Get | bundles/org.eclipse.ui.workbench.texteditor/src/org/eclipse/ui/internal/texteditor/spelling/util/JavaPlugin.java:229 | `get` on the access-ordered map returns the lookup and keeps the same entries; a hit moves the accessed entry to the most recent end and keeps the others in their order, a miss changes nothing |
| JavaPluginRepeatedMessages.Put | bundles/org.eclipse.ui.workbench.texteditor/src/org/eclipse/ui/internal/texteditor/spelling/util/JavaPlugin.java:98-104 | `put` leaves the new entry most recent, after the old entries in their order; it never lets a map of at most 19 entries grow past 19; it invents no entry; the only entry it can lose besides the key's own is the eldest one, and only when the key is new and the map would reach 20 |
| JavaPluginRepeatedMessages.LogRepeatedMessage | bundles/org.eclipse.ui.workbench.texteditor/src/org/eclipse/ui/internal/texteditor/spelling/util/JavaPlugin.java:225-235 | the message is written, as `message + detail`, iff it has no recorded time or the last one is more than 5000 ms old; its time becomes `now` either way; no other message's time changes; the size bound is kept |
| JavaPluginRepeatedMessages.SuppressedStep | bundles/org.eclipse.ui.workbench.texteditor/src/org/eclipse/ui/internal/texteditor/spelling/util/JavaPlugin.java:229-232 | a repeat within 5000 ms is not written and still refreshes the time |
| JavaPluginRepeatedMessages.CloseRepeatsSuppressed | bundles/org.eclipse.ui.workbench.texteditor/src/org/eclipse/ui/internal/texteditor/spelling/util/JavaPlugin.java:229-234 | a burst of repeats each at most 5000 ms after the previous one is never written again, however long it lasts |
| JavaPluginRepeatedMessages.RunStaysBounded | bundles/org.eclipse.ui.workbench.texteditor/src/org/eclipse/ui/internal/texteditor/spelling/util/JavaPlugin.java:98-104 | any series of calls on a map of fewer than 20 entries keeps it below 20 |
| JavaPluginRepeatedMessages.RunRemembersLast | bundles/org.eclipse.ui.workbench.texteditor/src/org/eclipse/ui/internal/texteditor/spelling/util/JavaPlugin.java:232 | after any series of calls the last message is present with the last time |
| JavaPluginWorkingSets.CreateOrUpdate | bundles/org.eclipse.ui.workbench.texteditor/src/org/eclipse/ui/internal/texteditor/spelling/util/JavaPlugin.java:250-263 | an error is logged iff `name` is taken by a set with another id, and then nothing changes; otherwise `name` ends up with the label and id, a new set empty and an existing one keeping its elements; no other set changes |
| JavaPluginWorkingSets.CreateOrUpdateWorkingSet | bundles/org.eclipse.ui.workbench.texteditor/src/org/eclipse/ui/internal/texteditor/spelling/util/JavaPlugin.java:248-268 | the logged text is exactly the source's message; the old set is removed iff it has the same id, with the lookup made after the create step, so that with `oldname == name` the set just made is removed; other names are untouched |
| JavaPluginWorkingSets.CreateOrUpdateIdempotent | bundles/org.eclipse.ui.workbench.texteditor/src/org/eclipse/ui/internal/texteditor/spelling/util/JavaPlugin.java:248-268 | calling again with the same arguments leaves the sets unchanged and logs the same error, if any |
| JavaPluginWorkingSets.RenameMovesSet | bundles/org.eclipse.ui.workbench.texteditor/src/org/eclipse/ui/internal/texteditor/spelling/util/JavaPlugin.java:248-268 | with a set of the same id only under the old name, the call moves it to the new name (new label, empty), and no other name appears or disappears |
| CoreSpellingProblem.LineStart | bundles/org.eclipse.ui.workbench.texteditor/src/org/eclipse/ui/internal/texteditor/spelling/impl/CoreSpellingProblem.java:98 | the line starts after the last delimiter before the offset |
| CoreSpellingProblem.LineEnd | bundles/org.eclipse.ui.workbench.texteditor/src/org/eclipse/ui/internal/texteditor/spelling/impl/CoreSpellingProblem.java:98 | the line ends at the first delimiter at or after the offset, or at the end of the text |
| CoreSpellingProblem.LineInformationOfOffset | bundles/org.eclipse.ui.workbench.texteditor/src/org/eclipse/ui/internal/texteditor/spelling/impl/CoreSpellingProblem.java:98 | the lookup succeeds iff `0 <= offset <= length`, giving the maximal delimiter-free region around the offset |
| CoreSpellingProblem.Get | bundles/org.eclipse.ui.workbench.texteditor/src/org/eclipse/ui/internal/texteditor/spelling/impl/CoreSpellingProblem.java:99-101 | `get(off, len)` succeeds iff `0 <= off`, `0 <= len` and `off + len <= length`, and returns the `len` characters from `off` |
| CoreSpellingProblem.NewProblem | bundles/org.eclipse.ui.workbench.texteditor/src/org/eclipse/ui/internal/texteditor/spelling/impl/CoreSpellingProblem.java:75-155 | the getters return exactly the constructor's arguments |
| CoreSpellingProblem.SetSourceStart | bundles/org.eclipse.ui.workbench.texteditor/src/org/eclipse/ui/internal/texteditor/spelling/impl/CoreSpellingProblem.java:182-184 | sets the start and nothing else |
| CoreSpellingProblem.SetSourceEnd | bundles/org.eclipse.ui.workbench.texteditor/src/org/eclipse/ui/internal/texteditor/spelling/impl/CoreSpellingProblem.java:190-192 | sets the end and nothing else |
| CoreSpellingProblem.SetSourceLineNumber | bundles/org.eclipse.ui.workbench.texteditor/src/org/eclipse/ui/internal/texteditor/spelling/impl/CoreSpellingProblem.java:198-200 | sets the line number and nothing else |
| CoreSpellingProblem.SeverityAndCategoryFixed | bundles/org.eclipse.ui.workbench.texteditor/src/org/eclipse/ui/internal/texteditor/spelling/impl/CoreSpellingProblem.java:161-216 | every problem is a warning, not an error or info, in the Javadoc category with the spelling marker type, and setters keep it so |
| CoreSpellingProblem.GetArguments | bundles/org.eclipse.ui.workbench.texteditor/src/org/eclipse/ui/internal/texteditor/spelling/impl/CoreSpellingProblem.java:91-107 | the result has five strings: the word, prefix, postfix, then `"true"`/`"false"` for sentence and match. The prefix runs from the line start to the start. The postfix runs from `end + 1` to the line end, and is empty when that range is invalid. Both are empty when the start lies outside the document |
| CoreSpellingProblem.ArgumentsReassembleLine | bundles/org.eclipse.ui.workbench.texteditor/src/org/eclipse/ui/internal/texteditor/spelling/impl/CoreSpellingProblem.java:98-101 | for a problem within one line, prefix + problem text + postfix is exactly that line |
| CoreSpellingProblem.LineAroundSpan | bundles/org.eclipse.ui.workbench.texteditor/src/org/eclipse/ui/internal/texteditor/spelling/impl/CoreSpellingProblem.java:98-101 | a delimiter-free span lies inside the line of its start, and splits it into before, span and after |
| CoreSpellingProblem.LineEndPastPlainRun | bundles/org.eclipse.ui.workbench.texteditor/src/org/eclipse/ui/internal/texteditor/spelling/impl/CoreSpellingProblem.java:98 | the line of a run's start reaches past a delimiter-free run |
| CoreSpellingProblem.ArgumentsStayOnOneLine | bundles/org.eclipse.ui.workbench.texteditor/src/org/eclipse/ui/internal/texteditor/spelling/impl/CoreSpellingProblem.java:98-101 | for a problem that does not end before it starts, neither prefix nor postfix holds a line delimiter |

Notes on the undo check:
- `computeUndoableStatus` never reads the valid flag. It only clears it,
  through `markInvalid` (CopyResourcesOperation.java:226). A later undo of
  an invalid operation can therefore be refused only by the base-class
  check, which is a parameter here. `InvalidIsAbsorbing` proves that no
  member of this class sets the flag again.
- The existence loop checks `resources[i]`, the current targets (the
  copies), for every index of `originalResources`. The comment above it
  speaks of the originals.
- `originalResourceDescriptions` is recorded by the constructors but never
  read by this class. `SnapshotsRestore` and `LatestOfSnapshots` are about
  what those recorded snapshots would allow, not about a behaviour of the
  class.

## Left out

- The workspace itself is out of scope: files, folders, markers and
  resource trees. `WorkspaceUndoUtil.delete` and `recreate` are total
  functions on a map, so a failing delete or recreate is not modelled.
- Progress monitors, `uiInfo`, the undo history and its threads are not
  modelled; none of them affects the bookkeeping.
- CopyResources.InvalidatedIffTargetMissing: the base class's
  `computeDeleteStatus` and `computeCreateStatus` (CopyResourcesOperation.java:232, 238)
  are given as plain status values, so a change they might make to the
  valid flag is not modelled; the lemma speaks of this class's own code.
- The round trip "execute, then undo, restores the workspace" cannot be
  proved. It depends on `moveOrCopy`, which is not part of this class and is
  a parameter here. `UndoRestoresOverwritten` and `SnapshotsRestore` prove the
  undo half.
- CopyResources.DoExecute: states only the delegation, with the copy flag,
  because that is all the method does.
- CopyResources.DoUndo: requires recorded originals. Every constructor
  sets them through `setOriginalResources`, which reads `originals.length`
  (line 265), so a null array fails in the constructor already; `doUndo`
  itself only passes the array on to `setTargetResources` (line 148).
- CopyResources.DoUndo: a null `resourceDescriptions` is modelled as an
  empty list. `recreate` (line 143) would receive `null`, and what it does
  with it is not part of this model.
- CopyResources.UpdateResourceChangeDescriptionFactory: a null
  `resourceDescriptions` is modelled as an empty list, so the undo case
  declares no creation. Java checks for null in `computeUndoableStatus`
  (line 236) but reads `resourceDescriptions.length` here (line 174), where
  a null array would throw.
- CopyResources.ComputeUndoableStatus: requires at least as many targets as
  originals. With fewer, Java's loop would throw an index-out-of-bounds
  exception.
- CopyResources.ComputeExecutionStatus and CopyResources.ComputeRedoableStatus
  take the base-class and move-or-copy checks as status values. Those
  checks are not part of this class.
- The preference store is not modelled: no `flush` and no
  `BackingStoreException`. Each preference is the string `getString` returns,
  and the boolean preferences are a set of keys that are true. The store's
  default fallback is folded into those strings: a type-filter value the user
  never set is read after `setDefault` has installed the new default, so it
  reads as that new default (`UnsetPreferencesUnchanged` covers this case).
- JavaPluginCodeAssist.InitializeCodeAssistCategoryDisabled: requires every
  default order entry to be a well-formed `key:rank` entry when the order list
  is read. A malformed entry makes Java throw from `nextToken` or `parseInt`.
- JavaStrings.ParseInt: accepts ASCII digits only. `Integer.parseInt` also
  accepts other Unicode decimal digits.
- The log sink and the stack trace of `logRepeatedMessage` are not
  modelled; the logged text is returned instead. `System.currentTimeMillis`
  is a parameter.
- JavaPluginRepeatedMessages.LogRepeatedMessage: calls are modelled as a
  sequence, one after the other. `fgRepeatedMessages` is a static,
  unsynchronized `LinkedHashMap` and `logRepeatedMessage` may run on any
  thread; concurrent calls on that map are not modelled.
- JavaPluginWorkingSets.CreateOrUpdateWorkingSet: working-set ids are never
  null here. In Java an existing set with a null id logs `id="null"`.
- The manager's property-change events, the workbench lookup and working-set
  elements other than the empty list of a new set are not modelled.
- CoreSpellingProblem.LineInformationOfOffset: recognises only `\n` as a
  line delimiter. The default line tracker also accepts `\r` and `\r\n`.
- `getID`, `JavaSpellingReconcileStrategy.SPELLING_PROBLEM_ID` and the
  numeric value of `CAT_JAVADOC` are not part of this model. The category is
  a symbolic value.
- CoreSpellingProblem.GetArguments: computes `end + 1` without 32-bit
  wrap-around. With `end` at the maximum int, Java's wrapped start is
  negative and the model's start lies past the text, so `get` fails either
  way and the postfix is empty.

=== FILE: code_assist.dfy ===
/** `JavaPlugin.initializeCodeAssistCategoryDisabled`: a content-assist
    proposal category introduced in a new release is disabled by default in
    workspaces whose user already customised the excluded-category list,
    once per category id. Both lists are `\0`-terminated token lists; the
    order list holds `key:rank` entries. */
module JavaPluginCodeAssist {
  import opened Wrappers
  import opened JavaStrings
  import opened Sequences

  /** Prefix of the per-category migrated flag. */
  const CodeAssistMigrated: string := "code_assist_migrated"

  /** Terminator of the entries of both lists. */
  const Nul: char := '\0'

  /** Separator between a category id and its rank. */
  const RankSep: char := ':'

  /** The boolean preference that records the migration of category `id`. */
  function MigratedKey(id: string): string
  {
    CodeAssistMigrated + "_" + id
  }

  /** The preferences the migration reads and writes: the values `getString`
      returns for CODEASSIST_EXCLUDED_CATEGORIES and CODEASSIST_CATEGORY_ORDER
      (the stored value, or the default where none is stored), the default of
      the latter, and the boolean preferences that are true. */
  datatype CodeAssistPrefs = CodeAssistPrefs(
    excluded: string,
    order: string,
    defaultOrder: string,
    flags: set<string>)

  /** One `key:rank` entry as read by a `:` tokenizer and `Integer.parseInt`;
      `None` where Java throws. */
  function ParseOrderEntry(entry: string): (r: Option<(string, int)>)
    ensures r.Some? ==> r.value.0 != "" && RankSep !in r.value.0
    ensures r.Some? ==> MinInt <= r.value.1 <= MaxInt
    ensures r.Some? ==> |Tokens(entry, RankSep)| >= 2 && r.value.0 == Tokens(entry, RankSep)[0]
    ensures Tokens(entry, RankSep) == [] ==> r.None?
    ensures r.Some? <==> |Tokens(entry, RankSep)| >= 2 && ParseInt(Tokens(entry, RankSep)[1]).Some?
    ensures r.Some? ==> r.value.1 == ParseInt(Tokens(entry, RankSep)[1]).value
  {
    var parts := Tokens(entry, RankSep);
    if |parts| < 2 then None
    else
      match ParseInt(parts[1])
      case None => None
      case Some(rank) => Some((parts[0], rank))
  }

  predicate WellFormedEntries(entries: seq<string>) {
    forall i :: 0 <= i < |entries| ==> ParseOrderEntry(entries[i]).Some?
  }

  /** Every entry of an order value parses. */
  predicate WellFormedOrder(value: string) {
    WellFormedEntries(Tokens(value, Nul))
  }

  /** The user has customised the excluded list and has not listed `id` in it. */
  predicate ShouldDisable(id: string, excluded: string) {
    var disabled := Tokens(excluded, Nul);
    |disabled| > 0 && id !in disabled
  }

  /** The entry written back for category `id` with rank `rank`, without its terminator. */
  function OrderEntry(id: string, rank: int): string
  {
    id + [RankSep] + IntToString(rank)
  }

  /** Reference definition: the ranks the default order gives `id`, in order. */
  function MatchingRanks(entries: seq<string>, id: string): seq<int>
    requires WellFormedEntries(entries)
  {
    if |entries| == 0 then []
    else
      var entry := ParseOrderEntry(entries[0]).value;
      (if entry.0 == id then [entry.1] else []) + MatchingRanks(entries[1..], id)
  }

  /** The `id:rank` entries for `ranks`, in order. */
  function RankEntries(ranks: seq<int>, id: string): seq<string>
  {
    if |ranks| == 0 then [] else [OrderEntry(id, ranks[0])] + RankEntries(ranks[1..], id)
  }

  /** Each entry followed by the terminator, concatenated. */
  function Terminated(entries: seq<string>): string
  {
    if |entries| == 0 then "" else entries[0] + [Nul] + Terminated(entries[1..])
  }

  /** The loop over the default order: every entry whose key is `id`
      appends `id:rank\0` to the current order value. */
  function AppendMatchingRanks(order: string, entries: seq<string>, id: string): (r: string)
    requires WellFormedEntries(entries)
    ensures order <= r
    ensures (forall i :: 0 <= i < |entries| ==> ParseOrderEntry(entries[i]).value.0 != id) ==> r == order
    ensures r == order + Terminated(RankEntries(MatchingRanks(entries, id), id))
    decreases |entries|
  {
    if |entries| == 0 then order
    else
      var entry := ParseOrderEntry(entries[0]).value;
      var rest := entries[1..];
      assert WellFormedEntries(rest) by {
        forall i | 0 <= i < |rest|
          ensures ParseOrderEntry(rest[i]).Some?
        {
          assert rest[i] == entries[i + 1];
        }
      }
      var tail := Terminated(RankEntries(MatchingRanks(rest, id), id));
      if entry.0 == id then
        var t := OrderEntry(id, entry.1);
        var r := AppendMatchingRanks(order + t + [Nul], rest, id);
        assert MatchingRanks(entries, id) == [entry.1] + MatchingRanks(rest, id);
        assert ([entry.1] + MatchingRanks(rest, id))[1..] == MatchingRanks(rest, id);
        assert Terminated(RankEntries(MatchingRanks(entries, id), id)) == t + [Nul] + tail;
        ConcatAssoc(order, t + [Nul], tail);
        ConcatAssoc(order, t, [Nul]);
        r
      else
        assert MatchingRanks(entries, id) == MatchingRanks(rest, id);
        AppendMatchingRanks(order, rest, id)
  }

  /** `initializeCodeAssistCategoryDisabled(id)`. */
  function InitializeCodeAssistCategoryDisabled(id: string, p: CodeAssistPrefs): (r: CodeAssistPrefs)
    requires MigratedKey(id) !in p.flags && ShouldDisable(id, p.excluded) ==> WellFormedOrder(p.defaultOrder)
    ensures MigratedKey(id) in p.flags ==> r == p
    ensures r.flags == p.flags + {MigratedKey(id)}
    ensures r.defaultOrder == p.defaultOrder
    ensures r.excluded != p.excluded <==> MigratedKey(id) !in p.flags && ShouldDisable(id, p.excluded)
    ensures r.excluded != p.excluded ==> r.excluded == p.excluded + id + [Nul]
    ensures r.order != p.order ==> r.excluded != p.excluded
    ensures r.excluded != p.excluded ==>
              r.order == p.order + Terminated(RankEntries(MatchingRanks(Tokens(p.defaultOrder, Nul), id), id))
  {
    if MigratedKey(id) in p.flags then p
    else
      var p' :=
        if ShouldDisable(id, p.excluded) then
          p.(excluded := p.excluded + id + [Nul],
             order := AppendMatchingRanks(p.order, Tokens(p.defaultOrder, Nul), id))
        else p;
      p'.(flags := p.flags + {MigratedKey(id)})
  }

  /** A second call for the same category changes nothing. */
  lemma InitializeIdempotent(id: string, p: CodeAssistPrefs)
    requires MigratedKey(id) !in p.flags && ShouldDisable(id, p.excluded) ==> WellFormedOrder(p.defaultOrder)
    ensures var r := InitializeCodeAssistCategoryDisabled(id, p);
            InitializeCodeAssistCategoryDisabled(id, r) == r
  {
  }

  /** On a terminated excluded list, disabling adds exactly the token `id`. */
  lemma ExcludedGainsId(id: string, p: CodeAssistPrefs)
    requires MigratedKey(id) !in p.flags && ShouldDisable(id, p.excluded) ==> WellFormedOrder(p.defaultOrder)
    requires p.excluded == "" || p.excluded[|p.excluded| - 1] == Nul
    requires id != "" && Nul !in id
    ensures var r := InitializeCodeAssistCategoryDisabled(id, p);
            Tokens(r.excluded, Nul)
            == if MigratedKey(id) !in p.flags && ShouldDisable(id, p.excluded)
               then Tokens(p.excluded, Nul) + [id]
               else Tokens(p.excluded, Nul)
  {
    if MigratedKey(id) !in p.flags && ShouldDisable(id, p.excluded) {
      TokensAppend(p.excluded, id, Nul);
    }
  }

  /** An entry written back holds no terminator and is never empty. */
  lemma OrderEntryIsToken(id: string, rank: int)
    requires id != "" && Nul !in id
    ensures OrderEntry(id, rank) != "" && Nul !in OrderEntry(id, rank)
  {
    IntToStringChars(rank, Nul);
  }

  /** Appending to a terminated order value adds one token per matching
      default entry, in the default's order. */
  lemma {:induction false} AppendMatchingRanksTokens(order: string, entries: seq<string>, id: string)
    requires WellFormedEntries(entries)
    requires order == "" || order[|order| - 1] == Nul
    requires id != "" && Nul !in id
    ensures Tokens(AppendMatchingRanks(order, entries, id), Nul)
            == Tokens(order, Nul) + RankEntries(MatchingRanks(entries, id), id)
    decreases |entries|
  {
    if |entries| == 0 {
      assert Tokens(order, Nul) + [] == Tokens(order, Nul);
    } else {
      var entry := ParseOrderEntry(entries[0]).value;
      var rest := entries[1..];
      assert WellFormedEntries(rest) by {
        forall i | 0 <= i < |rest|
          ensures ParseOrderEntry(rest[i]).Some?
        {
          assert rest[i] == entries[i + 1];
        }
      }
      var tail := RankEntries(MatchingRanks(rest, id), id);
      if entry.0 == id {
        var t := OrderEntry(id, entry.1);
        var order' := order + t + [Nul];
        OrderEntryIsToken(id, entry.1);
        TokensAppend(order, t, Nul);
        AppendMatchingRanksTokens(order', rest, id);
        assert MatchingRanks(entries, id) == [entry.1] + MatchingRanks(rest, id);
        assert ([entry.1] + MatchingRanks(rest, id))[1..] == MatchingRanks(rest, id);
        assert RankEntries([entry.1] + MatchingRanks(rest, id), id) == [t] + tail;
        ConcatAssoc(Tokens(order, Nul), [t], tail);
      } else {
        AppendMatchingRanksTokens(order, rest, id);
        assert MatchingRanks(entries, id) == [] + MatchingRanks(rest, id);
        assert [] + MatchingRanks(rest, id) == MatchingRanks(rest, id);
      }
    }
  }

  /** On a terminated order value, disabling appends one `id:rank` token for
      every default entry of `id`, and nothing else. */
  lemma OrderGainsRanks(id: string, p: CodeAssistPrefs)
    requires MigratedKey(id) !in p.flags && ShouldDisable(id, p.excluded)
    requires WellFormedOrder(p.defaultOrder)
    requires p.order == "" || p.order[|p.order| - 1] == Nul
    requires id != "" && Nul !in id
    ensures Tokens(InitializeCodeAssistCategoryDisabled(id, p).order, Nul)
            == Tokens(p.order, Nul) + RankEntries(MatchingRanks(Tokens(p.defaultOrder, Nul), id), id)
  {
    AppendMatchingRanksTokens(p.order, Tokens(p.defaultOrder, Nul), id);
  }

  /** An entry written back parses to the same category and rank. */
  lemma OrderEntryReparses(id: string, rank: int)
    requires id != "" && RankSep !in id
    requires MinInt <= rank <= MaxInt
    ensures ParseOrderEntry(OrderEntry(id, rank)) == Some((id, rank))
  {
    var digits := IntToString(rank);
    IntToStringChars(rank, RankSep);
    EntryTokens(id, digits);
    ParseIntToString(rank);
    ParsesEntry(OrderEntry(id, rank), id, digits, rank);
  }

  /** A key and a number joined by `:` tokenize back to the two. */
  lemma EntryTokens(id: string, digits: string)
    requires id != "" && RankSep !in id
    requires digits != "" && RankSep !in digits
    ensures Tokens(id + [RankSep] + digits, RankSep) == [id, digits]
  {
    assert Join([id, digits], RankSep) == id + [RankSep] + digits;
    FieldsJoin([id, digits], RankSep);
    assert NonEmpty([id]) == [id] by {
      assert [id][..0] == [];
    }
    assert NonEmpty([id, digits]) == [id, digits] by {
      assert [id, digits][..1] == [id];
    }
  }

  /** An entry whose tokens are a key and a number parses to both. */
  lemma ParsesEntry(entry: string, id: string, digits: string, rank: int)
    requires Tokens(entry, RankSep) == [id, digits]
    requires ParseInt(digits) == Some(rank)
    ensures ParseOrderEntry(entry) == Some((id, rank))
  {
  }
}

=== FILE: copy_resources.dfy ===
/** The undo bookkeeping of `CopyResourcesOperation`: what the constructors
    record as the original state, how undo deletes the copies and restores
    what they overwrote, the changes the operation declares, and how its
    execute/undo/redo checks are composed.

    The workspace is a map from path to content. The workspace helpers the
    class calls (`WorkspaceUndoUtil.delete` and `recreate`) are flat
    stand-ins on that map; the base-class behaviour that is not part of
    this class (`moveOrCopy`, `getDestinationPath` and the base-class
    status checks) enters as parameters. */
module CopyResources {
  import opened Wrappers

  type Path = string
  type Content = string
  type Workspace = map<Path, Content>

  /** A resource handle: it names a path whether or not something is there. */
  datatype Resource = Resource(path: Path)

  predicate Exists(ws: Workspace, r: Resource) {
    r.path in ws
  }

  /** A snapshot of a resource: its path and its content, `None` when
      nothing was there to snapshot. */
  datatype ResourceDescription = ResourceDescription(path: Path, content: Option<Content>)

  /** `ResourceDescription.fromResource`. */
  function FromResource(ws: Workspace, r: Resource): (d: ResourceDescription)
    ensures d.path == r.path
    ensures d.content.Some? <==> Exists(ws, r)
    ensures d.content.Some? ==> d.content.value == ws[r.path]
  {
    ResourceDescription(r.path, if r.path in ws then Some(ws[r.path]) else None)
  }

  /** `createResourceHandle` of a description. */
  function Handle(d: ResourceDescription): Resource
  {
    Resource(d.path)
  }

  function Paths(rs: seq<Resource>): set<Path>
  {
    set r | r in rs :: r.path
  }

  /** `WorkspaceUndoUtil.delete(resources, ...)`. */
  function Delete(ws: Workspace, rs: seq<Resource>): (r: Workspace)
    ensures r.Keys == ws.Keys - Paths(rs)
    ensures forall p :: p in r ==> r[p] == ws[p]
  {
    map p | p in ws && p !in Paths(rs) :: ws[p]
  }

  /** The content the last description of `p` holding one would restore. */
  function Latest(descs: seq<ResourceDescription>, p: Path): (r: Option<Content>)
    ensures r.Some? ==> ResourceDescription(p, r) in descs
    ensures r.None? <==> forall i :: 0 <= i < |descs| && descs[i].path == p ==> descs[i].content.None?
  {
    if |descs| == 0 then None
    else
      var d := descs[|descs| - 1];
      if d.path == p && d.content.Some? then d.content
      else Latest(descs[..|descs| - 1], p)
  }

  /** `WorkspaceUndoUtil.recreate(descriptions, ...)`: each description with
      content is written back in turn, so a later one wins. */
  function Recreate(ws: Workspace, descs: seq<ResourceDescription>): (r: Workspace)
    ensures forall p :: p in r <==> p in ws || Latest(descs, p).Some?
    ensures forall p :: p in r ==> r[p] == if Latest(descs, p).Some? then Latest(descs, p).value else ws[p]
    decreases |descs|
  {
    if |descs| == 0 then ws
    else
      var init := Recreate(ws, descs[..|descs| - 1]);
      var d := descs[|descs| - 1];
      match d.content
      case None => init
      case Some(c) => init[d.path := c]
  }

  /** The fields of the operation the model follows. `resources`,
      `destination`, `destinationPaths` and `resourceDescriptions` belong to
      the base classes (`None` stands for Java's `null`; a `null` list of
      descriptions is the empty list); `valid` is the base class's flag that
      `markInvalid` clears. */
  datatype CopyOperation = CopyOperation(
    name: string,
    resources: seq<Resource>,
    destination: Option<Path>,
    destinationPaths: Option<seq<Path>>,
    resourceDescriptions: seq<ResourceDescription>,
    originalResources: Option<seq<Resource>>,
    originalResourceDescriptions: seq<ResourceDescription>,
    originalDestination: Option<Path>,
    originalDestinationPaths: Option<seq<Path>>,
    valid: bool)

  /** The bookkeeping every constructed operation keeps, and that undo
      preserves: originals recorded with one snapshot each, and exactly one
      of the two destination kinds, both now and originally. */
  predicate WellFormed(op: CopyOperation) {
    && op.originalResources.Some?
    && |op.originalResourceDescriptions| == |op.originalResources.value|
    && (op.originalDestination.Some? != op.originalDestinationPaths.Some?)
    && (op.destination.Some? != op.destinationPaths.Some?)
  }

  /** One snapshot per resource, in order. */
  function Snapshots(ws: Workspace, rs: seq<Resource>): (r: seq<ResourceDescription>)
    ensures |r| == |rs|
    ensures forall i :: 0 <= i < |rs| ==> r[i] == FromResource(ws, rs[i])
  {
    seq(|rs|, i requires 0 <= i < |rs| => FromResource(ws, rs[i]))
  }

  /** `setOriginalResources(originals)`, snapshotting in workspace `ws`. */
  function SetOriginalResources(ws: Workspace, op: CopyOperation, originals: seq<Resource>): (r: CopyOperation)
    ensures r.originalResources == Some(originals)
    ensures |r.originalResourceDescriptions| == |originals|
    ensures forall i :: 0 <= i < |originals| ==>
              r.originalResourceDescriptions[i].path == originals[i].path &&
              (r.originalResourceDescriptions[i].content.Some? <==> Exists(ws, originals[i]))
    ensures r == op.(originalResources := r.originalResources,
                     originalResourceDescriptions := r.originalResourceDescriptions)
  {
    op.(originalResources := Some(originals), originalResourceDescriptions := Snapshots(ws, originals))
  }

  /** The state the base-class constructors leave: targets, destination and
      label set, nothing overwritten yet, not invalid. */
  function BaseOperation(resources: seq<Resource>, destination: Option<Path>,
                         destinationPaths: Option<seq<Path>>, name: string): CopyOperation
  {
    CopyOperation(name, resources, destination, destinationPaths, [], None, [], None, None, true)
  }

  /** `CopyResourcesOperation(resource, newPath, label)`. */
  function NewSingle(ws: Workspace, resource: Resource, newPath: Path, name: string): (r: CopyOperation)
    ensures WellFormed(r) && r.valid && r.resourceDescriptions == []
    ensures r.resources == [resource] && r.destination.None? && r.destinationPaths == Some([newPath])
    ensures r.originalResources == Some([resource]) && r.originalResourceDescriptions == [FromResource(ws, resource)]
    ensures r.originalDestination.None? && r.originalDestinationPaths == Some([newPath])
  {
    var op := SetOriginalResources(ws, BaseOperation([resource], None, Some([newPath]), name), [resource]);
    op.(originalDestinationPaths := Some([newPath]))
  }

  /** `CopyResourcesOperation(resources, destinationPath, label)`. */
  function NewToDestination(ws: Workspace, resources: seq<Resource>, destinationPath: Path, name: string)
    : (r: CopyOperation)
    ensures WellFormed(r) && r.valid && r.resourceDescriptions == []
    ensures r.resources == resources && r.destination == Some(destinationPath) && r.destinationPaths.None?
    ensures r.originalResources == Some(resources)
    ensures forall i :: 0 <= i < |resources| ==> r.originalResourceDescriptions[i] == FromResource(ws, resources[i])
    ensures r.originalDestination == Some(destinationPath) && r.originalDestinationPaths.None?
  {
    var op := SetOriginalResources(ws, BaseOperation(resources, Some(destinationPath), None, name), resources);
    op.(originalDestination := Some(destinationPath))
  }

  /** `CopyResourcesOperation(resources, destinationPaths, label)`. */
  function NewToPaths(ws: Workspace, resources: seq<Resource>, destinationPaths: seq<Path>, name: string)
    : (r: CopyOperation)
    ensures WellFormed(r) && r.valid && r.resourceDescriptions == []
    ensures r.resources == resources && r.destination.None? && r.destinationPaths == Some(destinationPaths)
    ensures r.originalResources == Some(resources)
    ensures forall i :: 0 <= i < |resources| ==> r.originalResourceDescriptions[i] == FromResource(ws, resources[i])
    ensures r.originalDestination.None? && r.originalDestinationPaths == Some(destinationPaths)
  {
    var op := SetOriginalResources(ws, BaseOperation(resources, None, Some(destinationPaths), name), resources);
    op.(originalDestinationPaths := Some(destinationPaths))
  }

  /** The base class's `moveOrCopy(monitor, uiInfo, move)`: the operation
      and workspace afterwards. */
  type MoveOrCopy = (CopyOperation, Workspace, bool) -> (CopyOperation, Workspace)

  /** `doExecute`: the base class's move-or-copy with the copy flag. */
  function DoExecute(op: CopyOperation, ws: Workspace, moveOrCopy: MoveOrCopy): (r: (CopyOperation, Workspace))
    ensures r == moveOrCopy(op, ws, false)
  {
    moveOrCopy(op, ws, false)
  }

  /** `doUndo`: delete the copies, then recreate what they overwrote, forget
      the snapshots, and go back to the original targets and destination. */
  function DoUndo(op: CopyOperation, ws: Workspace): (r: (CopyOperation, Workspace))
    requires op.originalResources.Some?
    ensures r.0.resourceDescriptions == []
    ensures r.0.resources == op.originalResources.value
    ensures op.originalDestination.Some? ==> r.0.destination == op.originalDestination && r.0.destinationPaths.None?
    ensures op.originalDestination.None? ==> r.0.destination.None? && r.0.destinationPaths == op.originalDestinationPaths
    ensures r.0 == op.(resources := r.0.resources, resourceDescriptions := [],
                       destination := r.0.destination, destinationPaths := r.0.destinationPaths)
    ensures forall p :: p in r.1 <==> Latest(op.resourceDescriptions, p).Some? || (p in ws && p !in Paths(op.resources))
    ensures forall p :: p in r.1 ==>
              r.1[p] == if Latest(op.resourceDescriptions, p).Some? then Latest(op.resourceDescriptions, p).value else ws[p]
  {
    var deleted := Delete(ws, op.resources);
    var restored := Recreate(deleted, op.resourceDescriptions);
    var op' := op.(resourceDescriptions := [], resources := op.originalResources.value);
    var op'' :=
      if op.originalDestination.Some? then op'.(destination := op.originalDestination, destinationPaths := None)
      else op'.(destination := None, destinationPaths := op.originalDestinationPaths);
    (op'', restored)
  }

  /** Undo keeps the operation well formed. */
  lemma UndoKeepsWellFormed(op: CopyOperation, ws: Workspace)
    requires WellFormed(op)
    ensures WellFormed(DoUndo(op, ws).0)
  {
  }

  /** After undo the operation is in the state its constructor left it in,
      whatever execution did to its targets, destination and snapshots. */
  lemma UndoResetsToConstruction(constructed: CopyOperation, op: CopyOperation, ws: Workspace)
    requires WellFormed(constructed) && constructed.resourceDescriptions == []
    requires constructed.resources == constructed.originalResources.value
    requires constructed.destination == constructed.originalDestination
    requires constructed.destinationPaths == constructed.originalDestinationPaths
    requires op == constructed.(resources := op.resources, resourceDescriptions := op.resourceDescriptions,
                                destination := op.destination, destinationPaths := op.destinationPaths)
    ensures DoUndo(op, ws).0 == constructed
  {
  }

  /** Each constructor records targets and destination as its originals. */
  lemma ConstructorsRecordOriginals(ws: Workspace, resource: Resource, resources: seq<Resource>,
                                    newPath: Path, destinationPath: Path, destinationPaths: seq<Path>, name: string)
    ensures var op := NewSingle(ws, resource, newPath, name);
            op.resources == op.originalResources.value && op.destinationPaths == op.originalDestinationPaths
    ensures var op := NewToDestination(ws, resources, destinationPath, name);
            op.resources == op.originalResources.value && op.destination == op.originalDestination
    ensures var op := NewToPaths(ws, resources, destinationPaths, name);
            op.resources == op.originalResources.value && op.destinationPaths == op.originalDestinationPaths
  {
  }

  /** Undo deletes before it recreates: a path that is both a copy and an
      overwritten resource ends up holding the overwritten content. */
  lemma UndoRestoresOverwritten(op: CopyOperation, ws: Workspace, d: ResourceDescription)
    requires op.originalResources.Some?
    requires d in op.resourceDescriptions && d.content.Some?
    requires forall e :: e in op.resourceDescriptions && e.path == d.path && e.content.Some? ==> e == d
    ensures var ws' := DoUndo(op, ws).1;
            d.path in ws' && ws'[d.path] == d.content.value
  {
    var o := Latest(op.resourceDescriptions, d.path);
    var i :| 0 <= i < |op.resourceDescriptions| && op.resourceDescriptions[i] == d;
    assert o.Some?;
    assert ResourceDescription(d.path, o) in op.resourceDescriptions;
  }

  /** The snapshots taken by `setOriginalResources` restore the originals:
      deleting them and recreating from the snapshots gives every original
      path back the content it had when the snapshot was taken, and leaves
      the paths that were empty empty. */
  lemma SnapshotsRestore(ws: Workspace, later: Workspace, originals: seq<Resource>)
    ensures var restored := Recreate(Delete(later, originals), Snapshots(ws, originals));
            forall p :: p in Paths(originals) ==>
              (p in restored <==> p in ws) && (p in ws ==> restored[p] == ws[p])
  {
    var snaps := Snapshots(ws, originals);
    forall p | p in Paths(originals)
      ensures Latest(snaps, p) == if p in ws then Some(ws[p]) else None
    {
      LatestOfSnapshots(ws, originals, p);
    }
  }

  /** A snapshot list determines each snapshotted path's content. */
  lemma LatestOfSnapshots(ws: Workspace, rs: seq<Resource>, p: Path)
    requires p in Paths(rs)
    ensures Latest(Snapshots(ws, rs), p) == if p in ws then Some(ws[p]) else None
  {
  }

  /** A change declared to the resource change description factory. */
  datatype Change =
    | DeleteChange(resource: Resource)
    | CreateChange(resource: Resource)
    | CopyChange(resource: Resource, target: Path)

  /** The base class's `getDestinationPath(resource, i)`. */
  type DestinationPath = (Resource, int) -> Path

  /** Reference definition of the declared changes: for undo, a delete per
      target then a create per snapshot; otherwise a copy per target. */
  function DeclaredChanges(op: CopyOperation, undo: bool, destinationPath: DestinationPath): (r: seq<Change>)
    ensures undo ==> |r| == |op.resources| + |op.resourceDescriptions|
    ensures !undo ==> |r| == |op.resources|
  {
    if undo then
      seq(|op.resources|, i requires 0 <= i < |op.resources| => DeleteChange(op.resources[i]))
      + seq(|op.resourceDescriptions|, j requires 0 <= j < |op.resourceDescriptions| =>
              CreateChange(Handle(op.resourceDescriptions[j])))
    else
      seq(|op.resources|, i requires 0 <= i < |op.resources| =>
            CopyChange(op.resources[i], destinationPath(op.resources[i], i)))
  }

  /** `updateResourceChangeDescriptionFactory(factory, operation)`: the
      changes declared, in order, and the result flag. */
  method UpdateResourceChangeDescriptionFactory(op: CopyOperation, undo: bool, destinationPath: DestinationPath)
    returns (changes: seq<Change>, update: bool)
    ensures changes == DeclaredChanges(op, undo, destinationPath)
    ensures update <==> |changes| > 0
  {
    changes := [];
    update := false;
    if undo {
      for i := 0 to |op.resources|
        invariant changes == seq(i, k requires 0 <= k < i => DeleteChange(op.resources[k]))
        invariant update <==> i > 0
      {
        update := true;
        changes := changes + [DeleteChange(op.resources[i])];
      }
      ghost var deletes := changes;
      for i := 0 to |op.resourceDescriptions|
        invariant changes == deletes + seq(i, k requires 0 <= k < i => CreateChange(Handle(op.resourceDescriptions[k])))
        invariant update <==> |deletes| > 0 || i > 0
      {
        update := true;
        changes := changes + [CreateChange(Handle(op.resourceDescriptions[i]))];
      }
    } else {
      for i := 0 to |op.resources|
        invariant changes == seq(i, k requires 0 <= k < i => CopyChange(op.resources[k], destinationPath(op.resources[k], k)))
        invariant update <==> i > 0
      {
        update := true;
        changes := changes + [CopyChange(op.resources[i], destinationPath(op.resources[i], i))];
      }
    }
  }

  /** The undo changes declared in advance cover what undo does: every path
      whose presence or content undo alters is declared as deleted or
      created, and every snapshot with content is declared as created. */
  lemma UndoDeclarationCoversUndo(op: CopyOperation, ws: Workspace, destinationPath: DestinationPath, p: Path)
    requires op.originalResources.Some?
    ensures var ws' := DoUndo(op, ws).1;
            var declared := DeclaredChanges(op, true, destinationPath);
            ((p in ws' <==> p in ws) && (p in ws ==> ws'[p] == ws[p])) ||
            DeleteChange(Resource(p)) in declared || CreateChange(Resource(p)) in declared
  {
    var ws' := DoUndo(op, ws).1;
    var declared := DeclaredChanges(op, true, destinationPath);
    var n := |op.resources|;
    if Latest(op.resourceDescriptions, p).Some? {
      var d := ResourceDescription(p, Latest(op.resourceDescriptions, p));
      var j :| 0 <= j < |op.resourceDescriptions| && op.resourceDescriptions[j] == d;
      assert declared[n + j] == CreateChange(Resource(p));
    } else if p in Paths(op.resources) {
      var r :| r in op.resources && r.path == p;
      var i :| 0 <= i < n && op.resources[i] == r;
      assert declared[i] == DeleteChange(Resource(p));
    }
  }

  /** IStatus severities; only `Ok` is OK. */
  datatype Severity = Ok | Info | Warning | Error | Cancel

  datatype Status = Status(severity: Severity, message: string)

  predicate IsOK(s: Status) {
    s.severity == Ok
  }

  /** The message key of the status reporting lost restore information. */
  const InvalidRestoreInfo: string := "AbstractResourcesOperation_InvalidRestoreInfo"

  const OkStatus: Status := Status(Ok, "")

  /** `getErrorStatus(message)`. */
  function ErrorStatus(message: string): (r: Status)
    ensures !IsOK(r) && r.message == message
  {
    Status(Error, message)
  }

  /** Reference definition of a chain of checks: the first one that fails,
      or the last one when all pass. */
  function FirstFailure(checks: seq<Status>): (r: Status)
    requires |checks| > 0
    ensures r in checks
    ensures IsOK(r) <==> forall i :: 0 <= i < |checks| ==> IsOK(checks[i])
    ensures !IsOK(r) ==>
              exists k :: 0 <= k < |checks| && r == checks[k] &&
                (forall j :: 0 <= j < k ==> IsOK(checks[j]))
    ensures IsOK(r) ==> r == checks[|checks| - 1]
  {
    if |checks| == 1 || !IsOK(checks[0]) then checks[0]
    else
      var r := FirstFailure(checks[1..]);
      if IsOK(r) then r
      else
        FailureShifted(checks, r);
        r
  }

  /** A failure preceded only by OK statuses in `checks[1..]` is one in
      `checks` when `checks[0]` is OK. */
  lemma FailureShifted(checks: seq<Status>, r: Status)
    requires |checks| > 1 && IsOK(checks[0])
    requires exists k :: 0 <= k < |checks| - 1 && r == checks[1..][k] &&
               (forall j :: 0 <= j < k ==> IsOK(checks[1..][j]))
    ensures exists k :: 0 <= k < |checks| && r == checks[k] &&
              (forall j :: 0 <= j < k ==> IsOK(checks[j]))
  {
    var k :| 0 <= k < |checks| - 1 && r == checks[1..][k] &&
             forall j :: 0 <= j < k ==> IsOK(checks[1..][j]);
    forall j | 0 <= j < k + 1
      ensures IsOK(checks[j])
    {
      if j > 0 {
        assert checks[j] == checks[1..][j - 1];
      }
    }
    assert r == checks[k + 1];
  }

  /** `computeExecutionStatus`: the base-class status, and the move-or-copy
      check only when that one is OK. */
  function ComputeExecutionStatus(superStatus: Status, moveOrCopyStatus: Status): (r: Status)
    ensures r == FirstFailure([superStatus, moveOrCopyStatus])
  {
    if IsOK(superStatus) then moveOrCopyStatus else superStatus
  }

  /** `computeRedoableStatus`: the same chain as the execution check, with
      the base class's redo check first. */
  function ComputeRedoableStatus(superStatus: Status, moveOrCopyStatus: Status): (r: Status)
    ensures r == FirstFailure([superStatus, moveOrCopyStatus])
  {
    ComputeExecutionStatus(superStatus, moveOrCopyStatus)
  }

  /** The undo check reads `resources[i]` for every index of the originals. */
  predicate UndoCheckable(op: CopyOperation) {
    op.originalResources.Some? ==> |op.originalResources.value| <= |op.resources|
  }

  /** The copies at the originals' indices still exist. */
  predicate TargetsExist(ws: Workspace, op: CopyOperation)
    requires UndoCheckable(op) && op.originalResources.Some?
  {
    forall i :: 0 <= i < |op.originalResources.value| ==> Exists(ws, op.resources[i])
  }

  /** The restore information is intact. */
  predicate RestoreInfoIntact(ws: Workspace, op: CopyOperation)
    requires UndoCheckable(op)
  {
    op.originalResources.Some? && TargetsExist(ws, op)
  }

  /** `markInvalid()`: one way, nothing else changes. */
  function MarkInvalid(op: CopyOperation): (r: CopyOperation)
    ensures !r.valid
    ensures r.(valid := op.valid) == op
  {
    op.(valid := false)
  }

  /** `computeUndoableStatus`: the status, and the operation afterwards
      (marked invalid when a copy has disappeared). The delete and create
      checks are the base class's. */
  function ComputeUndoableStatus(op: CopyOperation, ws: Workspace, superStatus: Status,
                                 deleteStatus: Status, createStatus: Status): (r: (Status, CopyOperation))
    requires UndoCheckable(op)
    ensures r.0 == FirstFailure([superStatus, if RestoreInfoIntact(ws, op) then OkStatus else ErrorStatus(InvalidRestoreInfo), deleteStatus]
                                + if |op.resourceDescriptions| > 0 then [createStatus] else [])
    ensures r.1 == if IsOK(superStatus) && op.originalResources.Some? && !TargetsExist(ws, op) then MarkInvalid(op) else op
  {
    if !IsOK(superStatus) then (superStatus, op)
    else if op.originalResources.None? then (ErrorStatus(InvalidRestoreInfo), op)
    else if !TargetsExist(ws, op) then (ErrorStatus(InvalidRestoreInfo), MarkInvalid(op))
    else
      var status := deleteStatus;
      var status' := if IsOK(status) && |op.resourceDescriptions| > 0 then createStatus else status;
      var tail := if |op.resourceDescriptions| > 0 then [createStatus] else [];
      var checks := [superStatus, OkStatus, deleteStatus] + tail;
      assert checks[1..][1..] == [deleteStatus] + tail;
      assert FirstFailure([deleteStatus] + tail) == status';
      (status', op)
  }

  /** The create check matters only when the base check passed, the
      restore information is intact, the delete check passed and there is
      something to recreate. */
  lemma CreateStatusConsultedOnlyWhenNeeded(op: CopyOperation, ws: Workspace, superStatus: Status,
                                            deleteStatus: Status, create1: Status, create2: Status)
    requires UndoCheckable(op)
    requires !(IsOK(superStatus) && RestoreInfoIntact(ws, op) && IsOK(deleteStatus) && |op.resourceDescriptions| > 0)
    ensures ComputeUndoableStatus(op, ws, superStatus, deleteStatus, create1)
         == ComputeUndoableStatus(op, ws, superStatus, deleteStatus, create2)
  {
  }

  /** A failing base check is returned unchanged and changes nothing. */
  lemma SuperFailureShortCircuits(op: CopyOperation, ws: Workspace, superStatus: Status,
                                  deleteStatus: Status, createStatus: Status)
    requires UndoCheckable(op) && !IsOK(superStatus)
    ensures ComputeUndoableStatus(op, ws, superStatus, deleteStatus, createStatus) == (superStatus, op)
  {
  }

  /** `markInvalid` is one way: an invalid operation stays invalid through
      the undo check, undo and the declaration of its changes (which does
      not touch it). */
  lemma InvalidIsAbsorbing(op: CopyOperation, ws: Workspace, superStatus: Status,
                           deleteStatus: Status, createStatus: Status)
    requires UndoCheckable(op) && !op.valid
    ensures !ComputeUndoableStatus(op, ws, superStatus, deleteStatus, createStatus).1.valid
    ensures op.originalResources.Some? ==> !DoUndo(op, ws).0.valid
  {
  }

  /** The undo check invalidates exactly when it finds a copy gone. */
  lemma InvalidatedIffTargetMissing(op: CopyOperation, ws: Workspace, superStatus: Status,
                                    deleteStatus: Status, createStatus: Status)
    requires UndoCheckable(op) && op.valid
    ensures var r := ComputeUndoableStatus(op, ws, superStatus, deleteStatus, createStatus);
            !r.1.valid <==> IsOK(superStatus) && op.originalResources.Some? &&
                            exists i :: 0 <= i < |op.originalResources.value| && !Exists(ws, op.resources[i])
    ensures var r := ComputeUndoableStatus(op, ws, superStatus, deleteStatus, createStatus);
            !r.1.valid ==> r.0 == ErrorStatus(InvalidRestoreInfo)
  {
  }
}

=== FILE: java_strings.dfy ===
/** The pieces of `java.lang.String`, `java.util.StringTokenizer`,
    `Collectors.joining` and `Integer` that the preference migrations rely on,
    written out as explicit functions on `seq<char>`. */
module JavaStrings {
  import opened Wrappers
  import opened Sequences

  // ---------------------------------------------------------------------------
  // Fields, join and String.split
  // ---------------------------------------------------------------------------

  /** The fields of `s` between occurrences of `sep`, empty fields included:
      what `String.split` returns with a negative limit. Built from the right,
      so the last field is the text after the last separator. */
  function Fields(s: string, sep: char): (r: seq<string>)
    ensures |r| >= 1
    ensures forall i :: 0 <= i < |r| ==> sep !in r[i]
    ensures r[|r| - 1] == "" <==> |s| == 0 || s[|s| - 1] == sep
  {
    if |s| == 0 then [""]
    else
      var init := Fields(s[..|s| - 1], sep);
      var c := s[|s| - 1];
      if c == sep then init + [""]
      else init[..|init| - 1] + [init[|init| - 1] + [c]]
  }

  /** `Collectors.joining(sep)` over the elements of `parts`, in order: it
      starts with the first part, ends with the last, and the empty stream
      gives the empty string. */
  function Join(parts: seq<string>, sep: char): string
  {
    if |parts| == 0 then ""
    else if |parts| == 1 then parts[0]
    else Join(parts[..|parts| - 1], sep) + [sep] + parts[|parts| - 1]
  }

  /** The joined string is empty for no parts, and otherwise starts with the
      first part and ends with the last. */
  lemma {:induction false} JoinEnds(parts: seq<string>, sep: char)
    ensures |parts| == 0 ==> Join(parts, sep) == ""
    ensures |parts| > 0 ==> parts[0] <= Join(parts, sep)
    ensures |parts| > 0 ==> var r, last := Join(parts, sep), parts[|parts| - 1];
              |last| <= |r| && r[|r| - |last|..] == last
    decreases |parts|
  {
    if |parts| > 1 {
      var init := parts[..|parts| - 1];
      JoinEnds(init, sep);
      assert init[0] == parts[0];
      var j := Join(init, sep);
      var r := j + [sep] + parts[|parts| - 1];
      assert r[..|j|] == j;
    }
  }

  /** Join of a list extended by one element. */
  lemma JoinSnoc(init: seq<string>, x: string, sep: char)
    requires |init| >= 1
    ensures Join(init + [x], sep) == Join(init, sep) + [sep] + x
  {
    var l := init + [x];
    assert l[..|l| - 1] == init;
  }

  /** Join of a list whose last element is extended by one character. */
  lemma JoinExtendLast(init: seq<string>, c: char, sep: char)
    requires |init| >= 1
    ensures var k := |init| - 1;
            Join(init[..k] + [init[k] + [c]], sep) == Join(init, sep) + [c]
  {
    var k := |init| - 1;
    if k > 0 {
      JoinSnoc(init[..k], init[k] + [c], sep);
      JoinSnoc(init[..k], init[k], sep);
      assert init[..k] + [init[k]] == init;
    } else {
      assert init[..k] + [init[k] + [c]] == [init[0] + [c]];
    }
  }

  /** Joining the fields of a string gives the string back. */
  lemma {:induction false} JoinFields(s: string, sep: char)
    ensures Join(Fields(s, sep), sep) == s
    decreases |s|
  {
    if |s| > 0 {
      var s' := s[..|s| - 1];
      var c := s[|s| - 1];
      assert s == s' + [c];
      JoinFields(s', sep);
      FieldsSnoc(s', c, sep);
      var init := Fields(s', sep);
      if c == sep {
        JoinSnoc(init, "", sep);
      } else {
        JoinExtendLast(init, c, sep);
      }
    }
  }

  /** One step of `Fields`: the effect of appending a single character. */
  lemma FieldsSnoc(s: string, c: char, sep: char)
    ensures var f := Fields(s, sep);
            Fields(s + [c], sep)
            == if c == sep then f + [""] else f[..|f| - 1] + [f[|f| - 1] + [c]]
  {
    var sc := s + [c];
    assert sc[..|sc| - 1] == s;
  }

  /** Appending separator-free text to a string only extends its last field. */
  lemma {:induction false} FieldsAppendPlain(x: string, p: string, sep: char)
    requires sep !in p
    ensures var f := Fields(x, sep);
            Fields(x + p, sep) == f[..|f| - 1] + [f[|f| - 1] + p]
    decreases |p|
  {
    var f := Fields(x, sep);
    var k := |f| - 1;
    if |p| == 0 {
      assert p == "";
      assert x + p == x;
      assert f[k] + p == f[k];
      assert f == f[..k] + [f[k]];
    } else {
      var p' := p[..|p| - 1];
      var c := p[|p| - 1];
      assert p == p' + [c];
      assert c != sep by {
        assert c in p;
      }
      FieldsAppendPlain(x, p', sep);
      var g := Fields(x + p', sep);
      assert |g| == k + 1;
      assert g[..k] == f[..k];
      assert g[k] == f[k] + p';
      FieldsSnoc(x + p', c, sep);
      ConcatAssoc(x, p', [c]);
      ConcatAssoc(f[k], p', [c]);
    }
  }

  /** Reading back the fields of a joined list gives the list, when no element
      contains the separator. */
  lemma {:induction false} FieldsJoin(parts: seq<string>, sep: char)
    requires |parts| >= 1
    requires forall i :: 0 <= i < |parts| ==> sep !in parts[i]
    ensures Fields(Join(parts, sep), sep) == parts
    decreases |parts|
  {
    if |parts| == 1 {
      FieldsAppendPlain("", parts[0], sep);
      assert "" + parts[0] == parts[0];
    } else {
      var init := parts[..|parts| - 1];
      var last := parts[|parts| - 1];
      assert parts == init + [last];
      FieldsJoin(init, sep);
      FieldsJoinStep(init, last, sep);
    }
  }

  /** One step of `FieldsJoin`: appending a separator-free element. */
  lemma FieldsJoinStep(init: seq<string>, last: string, sep: char)
    requires |init| >= 1 && sep !in last
    requires Fields(Join(init, sep), sep) == init
    ensures Fields(Join(init + [last], sep), sep) == init + [last]
  {
    var x := Join(init, sep) + [sep];
    FieldsSnoc(Join(init, sep), sep, sep);
    var fx := init + [""];
    assert Fields(x, sep) == fx;
    FieldsAppendPlain(x, last, sep);
    assert fx[..|fx| - 1] == init;
    assert fx[|fx| - 1] + last == last;
    JoinSnoc(init, last, sep);
  }

  /** A list with more than one element joins to a string holding the separator. */
  lemma JoinHasSeparator(parts: seq<string>, sep: char)
    requires |parts| >= 2
    ensures sep in Join(parts, sep)
  {
    var j := Join(parts[..|parts| - 1], sep);
    assert Join(parts, sep)[|j|] == sep;
  }

  /** `Join(a) + sep + Join(b)` for a non-empty `b`: when `a` is empty the
      result starts with an empty field. */
  lemma {:induction false} JoinAppend(a: seq<string>, b: seq<string>, sep: char)
    requires |b| >= 1
    ensures Join(a, sep) + [sep] + Join(b, sep)
            == Join((if |a| == 0 then [""] else a) + b, sep)
    decreases |b|
  {
    var a' := if |a| == 0 then [""] else a;
    assert Join(a, sep) == Join(a', sep);
    var b' := b[..|b| - 1];
    var y := b[|b| - 1];
    assert a' + b == (a' + b') + [y];
    if |b| == 1 {
      assert a' + b' == a';
      JoinSnoc(a', y, sep);
    } else {
      JoinAppend(a, b', sep);
      JoinSnoc(a' + b', y, sep);
      JoinSnoc(b', y, sep);
      assert b' + [y] == b;
      var ja, jb := Join(a, sep), Join(b', sep);
      calc {
        ja + [sep] + Join(b, sep);
        ja + [sep] + (jb + [sep] + y);
        { ConcatAssoc(ja + [sep], jb + [sep], y); ConcatAssoc(ja + [sep], jb, [sep]); }
        (ja + [sep] + jb) + [sep] + y;
        Join(a' + b', sep) + [sep] + y;
        Join(a' + b, sep);
      }
    }
  }

  /** `xs` without its trailing empty strings. */
  function DropTrailingEmpty(xs: seq<string>): (r: seq<string>)
    ensures |r| <= |xs| && r == xs[..|r|]
    ensures forall i :: |r| <= i < |xs| ==> xs[i] == ""
    ensures |r| == 0 || r[|r| - 1] != ""
  {
    if |xs| == 0 || xs[|xs| - 1] != "" then xs else DropTrailingEmpty(xs[..|xs| - 1])
  }

  /** Java's `s.split(";")` for a one-character, non-regex separator: the
      string itself when the separator does not occur (so `""` gives `[""]`),
      and otherwise all fields with the trailing empty ones removed. */
  function Split(s: string, sep: char): (r: seq<string>)
    ensures forall i :: 0 <= i < |r| ==> sep !in r[i]
    ensures s == "" ==> r == [""]
    ensures s != "" ==> |r| == 0 || r[|r| - 1] != ""
  {
    if sep !in s then [s] else DropTrailingEmpty(Fields(s, sep))
  }

  /** A separator-free string is its own single field. */
  lemma FieldsOfPlain(s: string, sep: char)
    requires sep !in s
    ensures Fields(s, sep) == [s]
  {
    FieldsAppendPlain("", s, sep);
    assert "" + s == s;
  }

  /** `Split` keeps a prefix of the fields and drops only empty ones. */
  lemma SplitIsFieldsPrefix(s: string, sep: char)
    ensures var r := Split(s, sep);
            var f := Fields(s, sep);
            |r| <= |f| && r == f[..|r|] && forall i :: |r| <= i < |f| ==> f[i] == ""
    ensures forall x :: x in Split(s, sep) ==> x in Fields(s, sep)
  {
    if sep !in s {
      FieldsOfPlain(s, sep);
    }
  }

  /** Split undoes Join when no element holds the separator and the last
      element is not empty. */
  lemma SplitJoin(parts: seq<string>, sep: char)
    requires |parts| >= 1 && parts[|parts| - 1] != ""
    requires forall i :: 0 <= i < |parts| ==> sep !in parts[i]
    ensures Split(Join(parts, sep), sep) == parts
  {
    FieldsJoin(parts, sep);
    if |parts| >= 2 {
      JoinHasSeparator(parts, sep);
    }
  }

  /** Join undoes Split on a string that does not end with the separator. */
  lemma JoinSplit(s: string, sep: char)
    requires s == "" || s[|s| - 1] != sep
    ensures Join(Split(s, sep), sep) == s
  {
    if sep in s {
      JoinFields(s, sep);
    }
  }

  // ---------------------------------------------------------------------------
  // StringTokenizer
  // ---------------------------------------------------------------------------

  /** The non-empty strings of `xs`, in order. */
  function NonEmpty(xs: seq<string>): (r: seq<string>)
    ensures forall i :: 0 <= i < |r| ==> r[i] != "" && r[i] in xs
    ensures forall x :: x in xs && x != "" ==> x in r
  {
    if |xs| == 0 then []
    else NonEmpty(xs[..|xs| - 1]) + (if xs[|xs| - 1] == "" then [] else [xs[|xs| - 1]])
  }

  /** A list without empty strings is kept whole, and a lone empty string
      is dropped; with `NonEmptyConcat` this determines `NonEmpty`. */
  lemma {:induction false} NonEmptyOfNonEmpty(xs: seq<string>)
    ensures (forall i :: 0 <= i < |xs| ==> xs[i] != "") ==> NonEmpty(xs) == xs
    ensures NonEmpty([""]) == []
    decreases |xs|
  {
    assert [""][..0] == [];
    if |xs| > 0 {
      NonEmptyOfNonEmpty(xs[..|xs| - 1]);
      assert xs == xs[..|xs| - 1] + [xs[|xs| - 1]];
    }
  }

  lemma {:induction false} NonEmptyConcat(a: seq<string>, b: seq<string>)
    ensures NonEmpty(a + b) == NonEmpty(a) + NonEmpty(b)
    decreases |b|
  {
    if |b| == 0 {
      assert a + b == a;
    } else {
      var b' := b[..|b| - 1];
      NonEmptyConcat(a, b');
      var ab := a + b;
      assert ab[..|ab| - 1] == a + b';
      assert ab[|ab| - 1] == b[|b| - 1];
    }
  }

  /** The tokens `new StringTokenizer(s, delim)` hands out: the maximal runs
      of non-delimiter characters, so empty tokens are skipped. */
  function Tokens(s: string, delim: char): (r: seq<string>)
    ensures forall i :: 0 <= i < |r| ==> r[i] != "" && delim !in r[i]
  {
    NonEmpty(Fields(s, delim))
  }

  /** The empty string has no tokens. */
  lemma TokensOfEmpty(delim: char)
    ensures Tokens("", delim) == []
  {
    assert Fields("", delim) == [""];
    NonEmptyOfNonEmpty([]);
  }

  /** Appending `t` and a delimiter to a delimiter-terminated (or empty) string
      adds exactly the token `t`. */
  lemma TokensAppend(s: string, t: string, delim: char)
    requires s == "" || s[|s| - 1] == delim
    requires t != "" && delim !in t
    ensures Tokens(s + t + [delim], delim) == Tokens(s, delim) + [t]
  {
    var f := Fields(s, delim);
    var g := f[..|f| - 1];
    FieldsAppendToken(s, t, delim);
    NonEmptyAppendField(g, t);
  }

  /** The fields of a delimiter-terminated string extended by a token and a
      delimiter: the token takes the place of the last, empty field. */
  lemma FieldsAppendToken(s: string, t: string, delim: char)
    requires s == "" || s[|s| - 1] == delim
    requires delim !in t
    ensures var f := Fields(s, delim);
            f == f[..|f| - 1] + [""] &&
            Fields(s + t + [delim], delim) == f[..|f| - 1] + [t] + [""]
  {
    var f := Fields(s, delim);
    var k := |f| - 1;
    assert f[k] == "";
    FieldsAppendPlain(s, t, delim);
    assert f[k] + t == t;
    var st := s + t + [delim];
    assert st[..|st| - 1] == s + t;
  }

  /** A non-empty field placed before a trailing empty one adds one token. */
  lemma NonEmptyAppendField(g: seq<string>, t: string)
    requires t != ""
    ensures NonEmpty(g + [t] + [""]) == NonEmpty(g + [""]) + [t]
  {
    NonEmptyOfNonEmpty([t]);
    NonEmptyConcat(g + [t], [""]);
    NonEmptyConcat(g, [t]);
    NonEmptyConcat(g, [""]);
  }

  // ---------------------------------------------------------------------------
  // Integer.parseInt and Integer.toString
  // ---------------------------------------------------------------------------

  const MinInt: int := -0x8000_0000
  const MaxInt: int := 0x7FFF_FFFF

  predicate IsDigit(c: char) { '0' <= c <= '9' }

  predicate AllDigits(s: string) { forall i :: 0 <= i < |s| ==> IsDigit(s[i]) }

  /** The value of a string of decimal digits. */
  function DigitsValue(s: string): nat
    requires AllDigits(s)
  {
    if |s| == 0 then 0
    else 10 * DigitsValue(s[..|s| - 1]) + (s[|s| - 1] as int - '0' as int)
  }

  function DigitChar(d: nat): (c: char)
    requires d < 10
    ensures IsDigit(c) && c as int - '0' as int == d
  {
    ('0' as int + d) as char
  }

  /** The decimal digits of `n`, most significant first, no leading zeros
      (`NatToStringCanonical`). */
  function NatToString(n: nat): (r: string)
    ensures |r| > 0 && AllDigits(r)
  {
    (if n < 10 then "" else NatToString(n / 10)) + [DigitChar(n % 10)]
  }

  /** `Integer.toString(n)`: the decimal digits of `|n|`, after a `-` when
      `n` is negative. */
  function IntToString(n: int): (r: string)
    ensures n >= 0 ==> |r| > 0 && AllDigits(r) && DigitsValue(r) == n
    ensures n < 0 ==> |r| > 1 && r[0] == '-' && AllDigits(r[1..]) && DigitsValue(r[1..]) == -n
    ensures n >= 0 ==> (r[0] == '0' <==> n == 0)
    ensures n < 0 ==> r[1] != '0'
  {
    if n < 0 then
      SignedDigits(-n);
      "-" + NatToString(-n)
    else
      DigitsOfNat(n);
      NatToStringCanonical(n);
      NatToString(n)
  }

  /** `Integer.parseInt(t)`: an optional `+` or `-`, then at least one
      decimal digit, and a value that fits in 32 bits; `None` where Java
      throws `NumberFormatException`. */
  function ParseInt(t: string): (r: Option<int>)
    ensures r.Some? ==> MinInt <= r.value <= MaxInt
    ensures r.Some? ==> |t| > 0 && (AllDigits(t) || (|t| > 1 && (t[0] == '-' || t[0] == '+') && AllDigits(t[1..])))
    ensures |t| > 0 && AllDigits(t) ==>
              r == if DigitsValue(t) <= MaxInt then Some(DigitsValue(t)) else None
    ensures |t| > 1 && t[0] == '-' && AllDigits(t[1..]) ==>
              r == if MinInt <= -(DigitsValue(t[1..]) as int) then Some(-(DigitsValue(t[1..]) as int)) else None
    ensures |t| > 1 && t[0] == '+' && AllDigits(t[1..]) ==>
              r == if DigitsValue(t[1..]) <= MaxInt then Some(DigitsValue(t[1..])) else None
  {
    if |t| == 0 then None
    else if t[0] == '-' || t[0] == '+' then ParseDigits(t[0] == '-', t[1..])
    else ParseDigits(false, t)
  }

  /** The unsigned part of `Integer.parseInt`. */
  function ParseDigits(negative: bool, digits: string): (r: Option<int>)
    ensures r.Some? ==> MinInt <= r.value <= MaxInt
  {
    if |digits| == 0 || !AllDigits(digits) then None
    else
      var magnitude: int := DigitsValue(digits);
      var v := if negative then -magnitude else magnitude;
      if MinInt <= v <= MaxInt then Some(v) else None
  }

  /** A `-` before the digits of `m`: the digits after the sign have value `m`. */
  lemma SignedDigits(m: nat)
    ensures |"-" + NatToString(m)| > 1 && ("-" + NatToString(m))[0] == '-'
    ensures ("-" + NatToString(m))[1..] == NatToString(m)
    ensures AllDigits(NatToString(m)) && DigitsValue(NatToString(m)) == m
    ensures m > 0 ==> ("-" + NatToString(m))[1] != '0'
  {
    var digits := NatToString(m);
    var r := "-" + digits;
    DigitsOfNat(m);
    NatToStringCanonical(m);
    assert r[1..] == digits;
  }

  /** The printed digits are canonical: a leading `0` only for zero, and
      then the whole string is `"0"`. */
  lemma {:induction false} NatToStringCanonical(n: nat)
    ensures NatToString(n)[0] == '0' <==> n == 0
    ensures n == 0 ==> NatToString(n) == "0"
  {
    if n >= 10 {
      NatToStringCanonical(n / 10);
      assert NatToString(n)[0] == NatToString(n / 10)[0];
    }
  }

  lemma {:induction false} DigitsOfNat(n: nat)
    ensures DigitsValue(NatToString(n)) == n
  {
    var prefix := if n < 10 then "" else NatToString(n / 10);
    var s := NatToString(n);
    assert s == prefix + [DigitChar(n % 10)];
    assert s[..|s| - 1] == prefix;
    assert s[|s| - 1] as int - '0' as int == n % 10;
    assert DigitsValue(s) == 10 * DigitsValue(prefix) + n % 10;
    if n >= 10 {
      DigitsOfNat(n / 10);
      assert DigitsValue(prefix) == n / 10;
    }
  }

  /** Parsing the printed form of a 32-bit integer gives the integer back. */
  lemma ParseIntToString(n: int)
    requires MinInt <= n <= MaxInt
    ensures ParseInt(IntToString(n)) == Some(n)
  {
    var t := IntToString(n);
    if n < 0 {
      assert !AllDigits(t) by {
        assert !IsDigit(t[0]);
      }
    }
  }

  /** The printed form of an integer never holds `c` unless `c` is a digit or `-`. */
  lemma IntToStringChars(n: int, c: char)
    requires !IsDigit(c) && c != '-'
    ensures c !in IntToString(n) && IntToString(n) != ""
  {
    var t := IntToString(n);
    if n < 0 {
      assert t == "-" + NatToString(-n);
      assert forall i :: 1 <= i < |t| ==> t[i] == NatToString(-n)[i - 1];
    }
  }
}

=== FILE: ordered_sets.dfy ===
/** `java.util.LinkedHashSet<String>` as a duplicate-free sequence in
    insertion order: `add` of a present element leaves the order alone,
    `removeAll` keeps the survivors in their order. */
module OrderedSets {
  import opened Sequences

  predicate NoDup(xs: seq<string>) {
    forall i, j :: 0 <= i < j < |xs| ==> xs[i] != xs[j]
  }

  /** `set.add(x)`. */
  function Add(xs: seq<string>, x: string): (r: seq<string>)
    ensures forall z :: z in r <==> z in xs || z == x
    ensures NoDup(xs) ==> NoDup(r)
    ensures |xs| <= |r| && r[..|xs|] == xs
  {
    if x in xs then xs else xs + [x]
  }

  /** `set.addAll(ys)`: each element of `ys` not yet present is appended,
      first occurrence first. */
  function AddAll(xs: seq<string>, ys: seq<string>): (r: seq<string>)
    ensures forall z :: z in r <==> z in xs || z in ys
    ensures NoDup(xs) ==> NoDup(r)
    ensures |xs| <= |r| && r[..|xs|] == xs
    decreases |ys|
  {
    if |ys| == 0 then xs else AddAll(Add(xs, ys[0]), ys[1..])
  }

  /** `set.removeAll(ys)`: the survivors keep their order. */
  function RemoveAll(xs: seq<string>, ys: seq<string>): (r: seq<string>)
    ensures forall z :: z in r <==> z in xs && z !in ys
    ensures NoDup(xs) ==> NoDup(r)
    ensures SubSeq(r, xs)
    ensures |r| <= |xs|
  {
    if |xs| == 0 then []
    else
      var init := xs[..|xs| - 1];
      var last := xs[|xs| - 1];
      var kept := RemoveAll(init, ys);
      assert xs == init + [last];
      if last in ys then kept
      else
        SubSeqSnoc(kept, init, last);
        kept + [last]
  }

  /** A `LinkedHashSet` filled from a list: its first occurrences, in order. */
  function Dedup(xs: seq<string>): (r: seq<string>)
    ensures NoDup(r)
    ensures forall z :: z in r <==> z in xs
  {
    AddAll([], xs)
  }

  /** `addAll` adds the elements one by one, in order: adding `ys + [y]` is
      adding `ys` and then `y`. With `Add`, this fixes the order of the
      result completely. */
  lemma {:induction false} AddAllSnoc(xs: seq<string>, ys: seq<string>, y: string)
    ensures AddAll(xs, ys + [y]) == Add(AddAll(xs, ys), y)
    decreases |ys|
  {
    if |ys| == 0 {
      assert ys + [y] == [y];
      assert [y][1..] == [];
    } else {
      var zs := ys + [y];
      assert zs[0] == ys[0] && zs[1..] == ys[1..] + [y];
      AddAllSnoc(Add(xs, ys[0]), ys[1..], y);
    }
  }

  /** A `LinkedHashSet` filled from a list keeps the first occurrence of each
      element: a later repeat changes nothing, a new element goes last. */
  lemma DedupSnoc(xs: seq<string>, x: string)
    ensures Dedup(xs + [x]) == Add(Dedup(xs), x)
  {
    AddAllSnoc([], xs, x);
  }

  /** Adding a duplicate-free list appends, in their order, exactly its
      elements not present yet. */
  lemma {:induction false} AddAllAppendsMissing(xs: seq<string>, ys: seq<string>)
    requires NoDup(ys)
    ensures AddAll(xs, ys) == xs + RemoveAll(ys, xs)
    decreases |ys|
  {
    if |ys| == 0 {
      assert xs + [] == xs;
    } else {
      var init := ys[..|ys| - 1];
      var y := ys[|ys| - 1];
      assert ys == init + [y];
      assert NoDup(init);
      assert y !in init by {
        forall i | 0 <= i < |init|
          ensures init[i] != y
        {
          assert init[i] == ys[i];
        }
      }
      AddAllAppendsMissing(xs, init);
      AddAllSnoc(xs, init, y);
      var missing := RemoveAll(init, xs);
      if y !in xs {
        assert y !in xs + missing;
        ConcatAssoc(xs, missing, [y]);
      }
    }
  }

  /** Adding elements that are all new just appends them. */
  lemma {:induction false} AddAllFresh(xs: seq<string>, ys: seq<string>)
    requires NoDup(xs + ys)
    ensures AddAll(xs, ys) == xs + ys
    decreases |ys|
  {
    if |ys| > 0 {
      var zs := xs + ys;
      assert ys[0] == zs[|xs|];
      assert ys[0] !in xs by {
        forall i | 0 <= i < |xs|
          ensures xs[i] != ys[0]
        {
          assert xs[i] == zs[i];
        }
      }
      assert Add(xs, ys[0]) == xs + [ys[0]];
      assert (xs + [ys[0]]) + ys[1..] == zs;
      AddAllFresh(xs + [ys[0]], ys[1..]);
    } else {
      assert xs + ys == xs;
    }
  }

  /** Filling a set from a list without repeats keeps the list as it is. */
  lemma DedupOfDistinct(xs: seq<string>)
    requires NoDup(xs)
    ensures Dedup(xs) == xs
  {
    assert [] + xs == xs;
    AddAllFresh([], xs);
  }
}

=== FILE: repeated_messages.dfy ===
/** `JavaPlugin.logRepeatedMessage`: a per-message rate limiter kept in a
    small access-ordered `LinkedHashMap` from message to the time it was
    last seen. The clock is a parameter and the log sink is the returned
    "written" flag. */
module JavaPluginRepeatedMessages {
  import opened Wrappers
  import opened Sequences

  /** `removeEldestEntry` answers true once the map holds this many entries. */
  const EvictionSize: nat := 20

  /** A repeat is written again only when more than this many milliseconds
      passed since it was last seen. */
  const RepeatInterval: int := 5000

  datatype Entry = Entry(message: string, time: int)

  /** The map in iteration order: the least recently accessed entry first.
      Times are `System.currentTimeMillis` values; as both operands of the
      subtraction are non-negative longs it cannot overflow, so `int` is exact. */
  type RepeatedMessages = seq<Entry>

  /** At most one entry per message. */
  predicate Keyed(c: RepeatedMessages) {
    forall i, j :: 0 <= i < j < |c| ==> c[i].message != c[j].message
  }

  /** `containsKey` / `get` without the reordering. */
  function Lookup(c: RepeatedMessages, m: string): (r: Option<int>)
    ensures r.None? <==> forall i :: 0 <= i < |c| ==> c[i].message != m
    ensures r.Some? ==> Entry(m, r.value) in c
  {
    if |c| == 0 then None
    else if c[|c| - 1].message == m then Some(c[|c| - 1].time)
    else Lookup(c[..|c| - 1], m)
  }

  /** In a keyed map the entry of a message determines its lookup. */
  lemma LookupEntry(c: RepeatedMessages, e: Entry)
    requires Keyed(c) && e in c
    ensures Lookup(c, e.message) == Some(e.time)
  {
    var i :| 0 <= i < |c| && c[i] == e;
    var v := Lookup(c, e.message).value;
    var j :| 0 <= j < |c| && c[j] == Entry(e.message, v);
    assert i == j;
  }

  /** The map without the entry of `m`, the others in their order. */
  function Without(c: RepeatedMessages, m: string): (r: RepeatedMessages)
    ensures forall e :: e in r <==> e in c && e.message != m
    ensures |r| <= |c|
    ensures SubSeq(r, c)
  {
    if |c| == 0 then []
    else
      var init := c[..|c| - 1];
      var last := c[|c| - 1];
      var w := Without(init, m);
      if last.message == m then w
      else
        SubSeqSnoc(w, init, last);
        assert init + [last] == c;
        w + [last]
  }

  /** Removing a key keeps the map keyed. */
  lemma {:induction false} WithoutKeyed(c: RepeatedMessages, m: string)
    requires Keyed(c)
    ensures Keyed(Without(c, m))
  {
    if |c| > 0 {
      var init := c[..|c| - 1];
      var last := c[|c| - 1];
      assert Keyed(init);
      WithoutKeyed(init, m);
      var w := Without(init, m);
      if last.message != m {
        var r := w + [last];
        forall i | 0 <= i < |w|
          ensures w[i].message != last.message
        {
          assert w[i] in init;
          var k :| 0 <= k < |init| && init[k] == w[i];
          assert c[k] == w[i];
        }
        forall i, j | 0 <= i < j < |r|
          ensures r[i].message != r[j].message
        {
          if j < |w| {
            assert r[i] == w[i] && r[j] == w[j];
          } else {
            assert r[i] == w[i];
          }
        }
      }
    }
  }

  /** Removing an absent key changes nothing. */
  lemma {:induction false} WithoutAbsent(c: RepeatedMessages, m: string)
    requires Lookup(c, m).None?
    ensures Without(c, m) == c
  {
    if |c| > 0 {
      var init := c[..|c| - 1];
      assert Lookup(init, m).None?;
      WithoutAbsent(init, m);
      assert c == init + [c[|c| - 1]];
    }
  }

  /** Removing a present key drops exactly one entry. */
  lemma {:induction false} WithoutPresent(c: RepeatedMessages, m: string)
    requires Keyed(c) && Lookup(c, m).Some?
    ensures |Without(c, m)| == |c| - 1
  {
    var init := c[..|c| - 1];
    var last := c[|c| - 1];
    assert Keyed(init);
    if last.message == m {
      assert Lookup(init, m).None? by {
        forall i | 0 <= i < |init|
          ensures init[i].message != m
        {
          assert init[i] == c[i];
        }
      }
      WithoutAbsent(init, m);
    } else {
      assert Lookup(c, m) == Lookup(init, m);
      WithoutPresent(init, m);
    }
  }

  /** `get(m)` on the access-ordered map: the value, and the entry moved to
      the most recently accessed end. */
  function Get(c: RepeatedMessages, m: string): (r: (Option<int>, RepeatedMessages))
    requires Keyed(c)
    ensures r.0 == Lookup(c, m)
    ensures Keyed(r.1) && |r.1| == |c|
    ensures forall e :: e in r.1 <==> e in c
    ensures r.0.Some? ==> r.1[|r.1| - 1] == Entry(m, r.0.value)
    ensures r.0.Some? ==> SubSeq(r.1[..|r.1| - 1], c)
    ensures r.0.None? ==> r.1 == c
  {
    match Lookup(c, m)
    case None => (None, c)
    case Some(v) =>
      WithoutKeyed(c, m);
      WithoutPresent(c, m);
      var r := Without(c, m) + [Entry(m, v)];
      assert Keyed(r) by {
        forall i, j | 0 <= i < j < |r|
          ensures r[i].message != r[j].message
        {
          if j == |r| - 1 {
            assert r[i] in Without(c, m);
          }
        }
      }
      assert r[..|r| - 1] == Without(c, m);
      (Some(v), r)
  }

  /** `put(m, t)` on the access-ordered map, then the `removeEldestEntry`
      hook, which `LinkedHashMap` consults only when `m` was a new key. */
  function Put(c: RepeatedMessages, m: string, t: int): (r: RepeatedMessages)
    requires Keyed(c)
    ensures Keyed(r)
    ensures |r| > 0 && r[|r| - 1] == Entry(m, t)
    ensures SubSeq(r[..|r| - 1], c)
    ensures |c| < EvictionSize ==> |r| < EvictionSize
    ensures forall e :: e in r && e.message != m ==> e in c
    ensures forall e :: e in c && e.message != m && e !in r ==>
              Lookup(c, m).None? && |c| + 1 >= EvictionSize && e == c[0]
  {
    if Lookup(c, m).Some? then
      WithoutKeyed(c, m);
      WithoutPresent(c, m);
      var r := Without(c, m) + [Entry(m, t)];
      assert Keyed(r) by {
        forall i, j | 0 <= i < j < |r|
          ensures r[i].message != r[j].message
        {
          if j == |r| - 1 {
            assert r[i] in Without(c, m);
          }
        }
      }
      assert r[..|r| - 1] == Without(c, m);
      r
    else
      var grown := c + [Entry(m, t)];
      assert Keyed(grown);
      if |grown| >= EvictionSize then
        assert forall e :: e in c && e != c[0] ==> e in grown[1..] by {
          forall e | e in c && e != c[0]
            ensures e in grown[1..]
          {
            var i :| 0 <= i < |c| && c[i] == e;
            assert grown[1..][i - 1] == e;
          }
        }
        SubSeqDropFirst(c);
        assert grown[1..][..|grown| - 2] == c[1..];
        grown[1..]
      else
        SubSeqRefl(c);
        assert grown[..|grown| - 1] == c;
        grown
  }

  /** `logRepeatedMessage(message, detail)` at time `now`: the map
      afterwards and the text logged, if any. */
  function LogRepeatedMessage(c: RepeatedMessages, message: string, detail: string, now: int)
    : (r: (RepeatedMessages, Option<string>))
    requires Keyed(c)
    ensures r.1.Some? <==> Lookup(c, message).None? || now - Lookup(c, message).value > RepeatInterval
    ensures r.1.Some? ==> r.1.value == message + detail
    ensures Keyed(r.0)
    ensures Lookup(r.0, message) == Some(now)
    ensures |c| < EvictionSize ==> |r.0| < EvictionSize
    ensures forall m :: m != message && Lookup(r.0, m).Some? ==> Lookup(r.0, m) == Lookup(c, m)
  {
    var written := match Lookup(c, message)
      case None => true
      case Some(last) => now - last > RepeatInterval;
    var accessed := if Lookup(c, message).Some? then Get(c, message).1 else c;
    var c' := Put(accessed, message, now);
    LookupEntry(c', Entry(message, now));
    assert forall m :: m != message && Lookup(c', m).Some? ==> Lookup(c', m) == Lookup(c, m) by {
      forall m | m != message && Lookup(c', m).Some?
        ensures Lookup(c', m) == Lookup(c, m)
      {
        var e := Entry(m, Lookup(c', m).value);
        assert e in accessed;
        LookupEntry(c, e);
      }
    }
    (c', if written then Some(message + detail) else None)
  }

  /** Whether each of successive calls with the same message is written. */
  function Replay(c: RepeatedMessages, message: string, times: seq<int>): (r: seq<bool>)
    requires Keyed(c)
    ensures |r| == |times|
    decreases |times|
  {
    if |times| == 0 then []
    else
      var step := LogRepeatedMessage(c, message, "", times[0]);
      [step.1.Some?] + Replay(step.0, message, times[1..])
  }

  /** One call within the interval of the last one: suppressed, and the
      time refreshed. */
  lemma SuppressedStep(c: RepeatedMessages, message: string, last: int, now: int)
    requires Keyed(c) && Lookup(c, message) == Some(last)
    requires now - last <= RepeatInterval
    ensures var step := LogRepeatedMessage(c, message, "", now);
            step.1.None? && Keyed(step.0) && Lookup(step.0, message) == Some(now)
  {
  }

  /** Gaps of at most the interval stay so after the first time. */
  lemma CloseGapsTail(times: seq<int>)
    requires |times| > 0
    requires forall i :: 0 < i < |times| ==> times[i] - times[i - 1] <= RepeatInterval
    ensures var rest := times[1..];
            (|rest| > 0 ==> rest[0] - times[0] <= RepeatInterval) &&
            forall i :: 0 < i < |rest| ==> rest[i] - rest[i - 1] <= RepeatInterval
  {
    var rest := times[1..];
    forall i | 0 < i < |rest|
      ensures rest[i] - rest[i - 1] <= RepeatInterval
    {
      assert rest[i] == times[i + 1] && rest[i - 1] == times[i];
    }
    if |rest| > 0 {
      assert rest[0] == times[1];
    }
  }

  /** A message that keeps recurring at most 5000 ms apart is never written
      again, however long the burst lasts: each suppressed call still
      refreshes its time. */
  lemma {:induction false} CloseRepeatsSuppressed(c: RepeatedMessages, message: string, last: int, times: seq<int>)
    requires Keyed(c) && Lookup(c, message) == Some(last)
    requires |times| > 0 ==> times[0] - last <= RepeatInterval
    requires forall i :: 0 < i < |times| ==> times[i] - times[i - 1] <= RepeatInterval
    ensures true !in Replay(c, message, times)
    decreases |times|
  {
    if |times| > 0 {
      SuppressedStep(c, message, last, times[0]);
      var next := LogRepeatedMessage(c, message, "", times[0]).0;
      var rest := times[1..];
      CloseGapsTail(times);
      CloseRepeatsSuppressed(next, message, times[0], rest);
      var tail := Replay(next, message, rest);
      assert Replay(c, message, times) == [false] + tail;
    }
  }

  /** The map after a series of `(message, time)` calls. */
  function Run(c: RepeatedMessages, calls: seq<(string, int)>): (r: RepeatedMessages)
    requires Keyed(c)
    ensures Keyed(r)
    decreases |calls|
  {
    if |calls| == 0 then c
    else Run(LogRepeatedMessage(c, calls[0].0, "", calls[0].1).0, calls[1..])
  }

  /** The map never holds twenty messages: starting from the empty map, any
      series of calls leaves it with at most nineteen. */
  lemma {:induction false} RunStaysBounded(c: RepeatedMessages, calls: seq<(string, int)>)
    requires Keyed(c) && |c| < EvictionSize
    ensures |Run(c, calls)| < EvictionSize
    decreases |calls|
  {
    if |calls| > 0 {
      RunStaysBounded(LogRepeatedMessage(c, calls[0].0, "", calls[0].1).0, calls[1..]);
    }
  }

  /** The last call's message is always remembered, with its time. */
  lemma {:induction false} RunRemembersLast(c: RepeatedMessages, calls: seq<(string, int)>)
    requires Keyed(c) && |calls| > 0
    ensures Lookup(Run(c, calls), calls[|calls| - 1].0) == Some(calls[|calls| - 1].1)
    decreases |calls|
  {
    if |calls| > 1 {
      RunRemembersLast(LogRepeatedMessage(c, calls[0].0, "", calls[0].1).0, calls[1..]);
    }
  }
}

=== FILE: sequences.dfy ===
/** Facts about sequences shared by the other modules. */
module Sequences {

  /** `a` is `b` with some elements left out, the others in their order. */
  predicate SubSeq<T(==)>(a: seq<T>, b: seq<T>)
    decreases |b|
  {
    if |a| == 0 then true
    else if |b| == 0 then false
    else SubSeq(a, b[..|b| - 1])
         || (a[|a| - 1] == b[|b| - 1] && SubSeq(a[..|a| - 1], b[..|b| - 1]))
  }

  /** Every sequence is a subsequence of itself. */
  lemma {:induction false} SubSeqRefl<T>(a: seq<T>)
    ensures SubSeq(a, a)
    decreases |a|
  {
    if |a| > 0 {
      SubSeqRefl(a[..|a| - 1]);
    }
  }

  /** Leaving out the first element gives a subsequence. */
  lemma {:induction false} SubSeqDropFirst<T>(a: seq<T>)
    requires |a| > 0
    ensures SubSeq(a[1..], a)
    decreases |a|
  {
    if |a| > 1 {
      var init := a[..|a| - 1];
      SubSeqDropFirst(init);
      assert a[1..][..|a[1..]| - 1] == init[1..];
    }
  }

  /** An element appended to both sides keeps a subsequence one. */
  lemma SubSeqSnoc<T>(a: seq<T>, b: seq<T>, x: T)
    requires SubSeq(a, b)
    ensures SubSeq(a + [x], b + [x])
  {
    assert (a + [x])[..|a|] == a;
    assert (b + [x])[..|b|] == b;
  }

  /** A subsequence of a subsequence is a subsequence. */
  lemma {:induction false} SubSeqTrans<T>(a: seq<T>, b: seq<T>, c: seq<T>)
    requires SubSeq(a, b) && SubSeq(b, c)
    ensures SubSeq(a, c)
    decreases |c|
  {
    if |a| > 0 {
      var a', b', c' := a[..|a| - 1], b[..|b| - 1], c[..|c| - 1];
      if SubSeq(b, c') {
        SubSeqTrans(a, b, c');
      } else if SubSeq(a, b') {
        SubSeqTrans(a, b', c');
      } else {
        SubSeqTrans(a', b', c');
      }
    }
  }

  /** A sequence is empty exactly when nothing is in it. */
  lemma EmptyIffNoElement<T>(s: seq<T>)
    ensures s == [] <==> forall x :: x !in s
  {
    if |s| > 0 {
      assert s[0] in s;
    }
  }

  lemma ConcatAssoc<T>(a: seq<T>, b: seq<T>, c: seq<T>)
    ensures a + b + c == a + (b + c)
  {
  }
}

=== FILE: spelling_problem.dfy ===
/** `CoreSpellingProblem`: the problem a spelling check reports for one
    word of a document, and the arguments its quick fixes receive, namely
    the word, the rest of its line on either side, and two flags. */
module CoreSpellingProblem {
  import opened Wrappers
  import opened Sequences

  /** The marker type of spelling problems. */
  const MarkerType: string := "org.eclipse.jdt.ui.internal.spelling"

  /** The line delimiter the document recognises. */
  const LineDelimiter: char := '\n'

  /** Problem categories; spelling problems are Javadoc problems. */
  datatype Category = CatJavadoc

  /** An `IRegion`: offset and length. */
  datatype Region = Region(offset: int, length: int)

  /** An `IDocument`, reduced to its text. */
  datatype Document = Document(text: string)

  /** The start of the line containing `off`: just after the last delimiter before it. */
  function LineStart(text: string, off: int): (r: nat)
    requires 0 <= off <= |text|
    ensures r <= off
    ensures LineDelimiter !in text[r..off]
    ensures r > 0 ==> text[r - 1] == LineDelimiter
  {
    if off == 0 then 0
    else if text[off - 1] == LineDelimiter then off
    else LineStart(text, off - 1)
  }

  /** The end of the line containing `off`, its delimiter excluded. */
  function LineEnd(text: string, off: int): (r: nat)
    requires 0 <= off <= |text|
    ensures off <= r <= |text|
    ensures LineDelimiter !in text[off..r]
    ensures r < |text| ==> text[r] == LineDelimiter
    decreases |text| - off
  {
    if off == |text| || text[off] == LineDelimiter then off
    else LineEnd(text, off + 1)
  }

  /** `getLineInformationOfOffset(off)`; `None` where the document throws
      `BadLocationException`. The region is the whole delimiter-free run of
      text around `off`. */
  function LineInformationOfOffset(doc: Document, off: int): (r: Option<Region>)
    ensures r.Some? <==> 0 <= off <= |doc.text|
    ensures r.Some? ==> 0 <= r.value.offset <= off <= r.value.offset + r.value.length <= |doc.text|
    ensures r.Some? ==> LineDelimiter !in doc.text[r.value.offset..r.value.offset + r.value.length]
    ensures r.Some? && r.value.offset > 0 ==> doc.text[r.value.offset - 1] == LineDelimiter
    ensures r.Some? && r.value.offset + r.value.length < |doc.text| ==>
              doc.text[r.value.offset + r.value.length] == LineDelimiter
  {
    if 0 <= off <= |doc.text| then
      var start := LineStart(doc.text, off);
      var end := LineEnd(doc.text, off);
      assert doc.text[start..end] == doc.text[start..off] + doc.text[off..end];
      Some(Region(start, end - start))
    else None
  }

  /** `get(off, len)`; `None` where the document throws. */
  function Get(doc: Document, off: int, len: int): (r: Option<string>)
    ensures r.Some? <==> 0 <= off && 0 <= len && off + len <= |doc.text|
    ensures r.Some? ==> |r.value| == len && forall i :: 0 <= i < len ==> r.value[i] == doc.text[off + i]
  {
    if 0 <= off && 0 <= len && off + len <= |doc.text| then Some(doc.text[off..off + len]) else None
  }

  datatype Problem = Problem(
    sourceStart: int,
    sourceEnd: int,
    lineNumber: int,
    message: string,
    word: string,
    inDictionary: bool,
    sentence: bool,
    document: Document,
    origin: string)

  /** The constructor. */
  function NewProblem(start: int, end: int, line: int, message: string, word: string,
                      inDictionary: bool, sentence: bool, document: Document, origin: string): (r: Problem)
    ensures GetSourceStart(r) == start && GetSourceEnd(r) == end && GetSourceLineNumber(r) == line
    ensures GetMessage(r) == message && GetOriginatingFileName(r) == origin
    ensures r.word == word && r.inDictionary == inDictionary && r.sentence == sentence && r.document == document
  {
    Problem(start, end, line, message, word, inDictionary, sentence, document, origin)
  }

  function GetSourceStart(p: Problem): int { p.sourceStart }
  function GetSourceEnd(p: Problem): int { p.sourceEnd }
  function GetSourceLineNumber(p: Problem): int { p.lineNumber }
  function GetMessage(p: Problem): string { p.message }
  function GetOriginatingFileName(p: Problem): string { p.origin }

  /** `setSourceStart`: the start changes and nothing else. */
  function SetSourceStart(p: Problem, sourceStart: int): (r: Problem)
    ensures GetSourceStart(r) == sourceStart
    ensures r.(sourceStart := p.sourceStart) == p
  {
    p.(sourceStart := sourceStart)
  }

  /** `setSourceEnd`: the end changes and nothing else. */
  function SetSourceEnd(p: Problem, sourceEnd: int): (r: Problem)
    ensures GetSourceEnd(r) == sourceEnd
    ensures r.(sourceEnd := p.sourceEnd) == p
  {
    p.(sourceEnd := sourceEnd)
  }

  /** `setSourceLineNumber`: the line number changes and nothing else. */
  function SetSourceLineNumber(p: Problem, lineNumber: int): (r: Problem)
    ensures GetSourceLineNumber(r) == lineNumber
    ensures r.(lineNumber := p.lineNumber) == p
  {
    p.(lineNumber := lineNumber)
  }

  function IsError(p: Problem): bool { false }
  function IsWarning(p: Problem): bool { true }
  function IsInfo(p: Problem): bool { false }
  function GetCategoryID(p: Problem): Category { CatJavadoc }
  function GetMarkerType(p: Problem): string { MarkerType }

  /** Spelling problems are warnings in the Javadoc category, whatever
      their fields, and setting a position keeps that. */
  lemma SeverityAndCategoryFixed(p: Problem, start: int, end: int, line: int)
    ensures IsWarning(p) && !IsError(p) && !IsInfo(p)
    ensures GetCategoryID(p) == CatJavadoc && GetMarkerType(p) == "org.eclipse.jdt.ui.internal.spelling"
    ensures var q := SetSourceLineNumber(SetSourceEnd(SetSourceStart(p, start), end), line);
            IsWarning(q) && GetCategoryID(q) == GetCategoryID(p) && GetMessage(q) == GetMessage(p)
  {
  }

  /** `Boolean.toString`. */
  function BoolString(b: bool): string
  {
    if b then "true" else "false"
  }

  /** `getArguments()`: the word, the text of its line before the start, the
      text of that line after the end, and the sentence and match flags.
      A failed document lookup leaves the parts not yet computed empty. */
  function GetArguments(p: Problem): (r: seq<string>)
    ensures |r| == 5
    ensures r[0] == p.word && r[3] == BoolString(p.sentence) && r[4] == BoolString(p.inDictionary)
    ensures !(0 <= p.sourceStart <= |p.document.text|) ==> r[1] == "" && r[2] == ""
    ensures 0 <= p.sourceStart <= |p.document.text| ==>
              r[1] == p.document.text[LineStart(p.document.text, p.sourceStart)..p.sourceStart]
    ensures 0 <= p.sourceStart <= |p.document.text| && 0 <= p.sourceEnd + 1 <= LineEnd(p.document.text, p.sourceStart) ==>
              r[2] == p.document.text[p.sourceEnd + 1..LineEnd(p.document.text, p.sourceStart)]
    ensures !(0 <= p.sourceStart <= |p.document.text| && 0 <= p.sourceEnd + 1 <= LineEnd(p.document.text, p.sourceStart)) ==>
              r[2] == ""
  {
    var parts: (string, string) :=
      match LineInformationOfOffset(p.document, p.sourceStart)
      case None => ("", "")
      case Some(line) =>
        match Get(p.document, line.offset, p.sourceStart - line.offset)
        case None => ("", "")
        case Some(prefix) =>
          var postfixStart := p.sourceEnd + 1;
          match Get(p.document, postfixStart, line.offset + line.length - postfixStart)
          case None => (prefix, "")
          case Some(postfix) => (prefix, postfix);
    [p.word, parts.0, parts.1, BoolString(p.sentence), BoolString(p.inDictionary)]
  }

  /** When the problem lies within one line, the prefix, the problem text
      and the postfix put back together are exactly that line. */
  lemma ArgumentsReassembleLine(p: Problem)
    requires 0 <= p.sourceStart <= p.sourceEnd + 1 <= |p.document.text|
    requires LineDelimiter !in p.document.text[p.sourceStart..p.sourceEnd + 1]
    ensures var text := p.document.text;
            var args := GetArguments(p);
            args[1] + text[p.sourceStart..p.sourceEnd + 1] + args[2]
            == text[LineStart(text, p.sourceStart)..LineEnd(text, p.sourceStart)]
  {
    var text := p.document.text;
    LineAroundSpan(text, p.sourceStart, p.sourceEnd + 1);
  }

  /** A delimiter-free span splits its line into the text before it, the
      span and the text after it. */
  lemma LineAroundSpan(text: string, s: int, e: int)
    requires 0 <= s <= e <= |text|
    requires LineDelimiter !in text[s..e]
    ensures e <= LineEnd(text, s)
    ensures text[LineStart(text, s)..s] + text[s..e] + text[e..LineEnd(text, s)]
            == text[LineStart(text, s)..LineEnd(text, s)]
  {
    var ls := LineStart(text, s);
    var le := LineEnd(text, s);
    LineEndPastPlainRun(text, s, e);
    SliceSplit(text, ls, s, le);
    SliceSplit(text, s, e, le);
    ConcatAssoc(text[ls..s], text[s..e], text[e..le]);
  }

  lemma SliceSplit(text: string, a: int, b: int, c: int)
    requires 0 <= a <= b <= c <= |text|
    ensures text[a..c] == text[a..b] + text[b..c]
  {
  }

  /** The line containing the start of a delimiter-free run reaches at least
      to the end of the run. */
  lemma {:induction false} LineEndPastPlainRun(text: string, s: int, e: int)
    requires 0 <= s <= e <= |text|
    requires LineDelimiter !in text[s..e]
    ensures e <= LineEnd(text, s)
    decreases e - s
  {
    if s < e {
      assert text[s] == text[s..e][0];
      assert text[s + 1..e] == text[s..e][1..];
      LineEndPastPlainRun(text, s + 1, e);
    }
  }

  /** For a problem that does not end before it starts, the prefix and the
      postfix stay within one line. */
  lemma ArgumentsStayOnOneLine(p: Problem)
    requires p.sourceStart <= p.sourceEnd + 1
    ensures LineDelimiter !in GetArguments(p)[1] && LineDelimiter !in GetArguments(p)[2]
  {
    var text := p.document.text;
    var s := p.sourceStart;
    var e := p.sourceEnd + 1;
    if 0 <= s <= |text| && e <= LineEnd(text, s) {
      var le := LineEnd(text, s);
      assert text[e..le] == text[s..le][e - s..];
    }
  }
}

=== FILE: type_filters.dfy ===
/** The type-filter preference migration of `JavaPlugin.setTypeFilterPreferences`:
    new built-in filters are merged into the default values every time, and
    into the user's current values once, guarded by a migrated flag. */
module JavaPluginTypeFilters {
  import opened JavaStrings
  import opened OrderedSets
  import opened Sequences

  /** Separator of the filter lists. */
  const Sep: char := ';'

  /** Filters added to the enabled list. */
  const EnabledFiltersToAdd: seq<string> :=
    ["com.sun.*", "sun.*", "jdk.*", "io.micrometer.shaded.*", "java.awt.List"]

  /** Filters added to the disabled list. */
  const DisabledFiltersToAdd: seq<string> := ["java.rmi.*", "org.graalvm.*", "java.awt.*"]

  /** Filters taken out of the current enabled list before comparing. */
  const RemovedFromEnabled: seq<string> := ["org.graalvm.*", "java.awt.*"]

  /** The defaults of the two preferences, their current values and the
      `typefilter_migrated_2` flag. `enabled` and `disabled` are what
      `getString` returns once the new defaults are set: a preference the
      user never set reads as its new default. */
  datatype TypeFilterPrefs = TypeFilterPrefs(
    defaultEnabled: string,
    defaultDisabled: string,
    enabled: string,
    disabled: string,
    migrated: bool)

  predicate SepFree(xs: seq<string>) {
    forall x :: x in xs ==> Sep !in x
  }

  lemma AdditionsWellFormed()
    ensures NoDup(EnabledFiltersToAdd) && SepFree(EnabledFiltersToAdd)
    ensures NoDup(DisabledFiltersToAdd) && SepFree(DisabledFiltersToAdd)
  {
  }

  /** No built-in addition is empty, and the enabled ones are not among the
      filters removed from the current enabled list. */
  lemma AdditionsNonEmpty()
    ensures forall x :: x in EnabledFiltersToAdd ==> x != "" && x !in RemovedFromEnabled
    ensures forall x :: x in DisabledFiltersToAdd ==> x != ""
  {
  }

  /** A preference value read into a `LinkedHashSet` through `split(";")`. */
  function FilterSet(value: string): (r: seq<string>)
    ensures NoDup(r) && SepFree(r)
    ensures forall x :: x in r <==> x in Split(value, Sep)
  {
    Dedup(Split(value, Sep))
  }

  /** The merged default list: the old default's filters in their order, then
      the additions that were not among them, in theirs. */
  function MergedDefault(defaultValue: string, additions: seq<string>): (r: seq<string>)
    ensures NoDup(r)
    ensures |FilterSet(defaultValue)| <= |r| && r[..|FilterSet(defaultValue)|] == FilterSet(defaultValue)
    ensures forall x :: x in r <==> x in Split(defaultValue, Sep) || x in additions
  {
    AddAll(FilterSet(defaultValue), additions)
  }

  /** For distinct additions, the merged default is the old default's
      filters followed by the additions missing from them, in their order. */
  lemma MergedAppendsMissing(defaultValue: string, additions: seq<string>)
    requires NoDup(additions)
    ensures MergedDefault(defaultValue, additions)
            == FilterSet(defaultValue) + RemoveAll(additions, FilterSet(defaultValue))
  {
    AddAllAppendsMissing(FilterSet(defaultValue), additions);
  }

  /** The new default value: the merged list joined with `;`, which reads
      back field by field as that list. */
  function NewDefault(defaultValue: string, additions: seq<string>): (r: string)
    ensures |additions| >= 1 && SepFree(additions) ==> Fields(r, Sep) == MergedDefault(defaultValue, additions)
  {
    var m := MergedDefault(defaultValue, additions);
    if |additions| >= 1 && SepFree(additions) then
      MergedWellFormed(defaultValue, additions);
      FieldsJoin(m, Sep);
      Join(m, Sep)
    else Join(m, Sep)
  }

  /** The current enabled filters with `org.graalvm.*` and `java.awt.*` taken out. */
  function CurrentEnabled(p: TypeFilterPrefs): (r: seq<string>)
    ensures NoDup(r) && SepFree(r)
    ensures forall x :: x in r <==> x in Split(p.enabled, Sep) && x !in RemovedFromEnabled
  {
    RemoveAll(FilterSet(p.enabled), RemovedFromEnabled)
  }

  function CurrentDisabled(p: TypeFilterPrefs): (r: seq<string>)
    ensures NoDup(r) && SepFree(r)
    ensures forall x :: x in r <==> x in Split(p.disabled, Sep)
  {
    FilterSet(p.disabled)
  }

  /** The additions still missing from both current lists, in their order. */
  function ToAdd(additions: seq<string>, p: TypeFilterPrefs): (r: seq<string>)
    ensures NoDup(additions) ==> NoDup(r)
    ensures SepFree(additions) ==> SepFree(r)
    ensures SubSeq(r, additions)
    ensures forall x :: x in r <==>
      x in additions && x !in CurrentEnabled(p) && x !in CurrentDisabled(p)
  {
    var kept := RemoveAll(additions, CurrentEnabled(p));
    SubSeqTrans(RemoveAll(kept, CurrentDisabled(p)), kept, additions);
    RemoveAll(kept, CurrentDisabled(p))
  }

  /** The rewritten value: the current filters joined, a separator, then the
      additions joined. Read back field by field it is the current filters
      (or one empty field when there are none) followed by the additions. */
  function Extend(current: seq<string>, toAdd: seq<string>): (r: string)
    ensures |toAdd| >= 1 && SepFree(current) && SepFree(toAdd) ==>
              Fields(r, Sep) == (if |current| == 0 then [""] else current) + toAdd
  {
    if |toAdd| >= 1 && SepFree(current) && SepFree(toAdd) then
      JoinAppend(current, toAdd, Sep);
      var l := (if |current| == 0 then [""] else current) + toAdd;
      assert SepFree(l) by {
        forall i | 0 <= i < |l|
          ensures Sep !in l[i]
        {
          if i >= |l| - |toAdd| {
            assert l[i] == toAdd[i - (|l| - |toAdd|)];
          }
        }
      }
      FieldsJoin(l, Sep);
      Join(current, Sep) + [Sep] + Join(toAdd, Sep)
    else Join(current, Sep) + [Sep] + Join(toAdd, Sep)
  }

  /** `setTypeFilterPreferences`: the defaults are always re-merged; unless
      already migrated, a current value is rewritten when something is
      missing from both lists; the flag ends up set. */
  function SetTypeFilterPreferences(p: TypeFilterPrefs): (r: TypeFilterPrefs)
    ensures r.migrated
    ensures r.defaultEnabled == NewDefault(p.defaultEnabled, EnabledFiltersToAdd)
    ensures r.defaultDisabled == NewDefault(p.defaultDisabled, DisabledFiltersToAdd)
    ensures p.migrated ==> r.enabled == p.enabled && r.disabled == p.disabled
    ensures r.enabled != p.enabled ==> !p.migrated && |ToAdd(EnabledFiltersToAdd, p)| > 0
    ensures r.disabled != p.disabled ==> !p.migrated && |ToAdd(DisabledFiltersToAdd, p)| > 0
  {
    var defaults := p.(
      defaultEnabled := NewDefault(p.defaultEnabled, EnabledFiltersToAdd),
      defaultDisabled := NewDefault(p.defaultDisabled, DisabledFiltersToAdd));
    if p.migrated then defaults
    else
      var enabledToAdd := ToAdd(EnabledFiltersToAdd, p);
      var disabledToAdd := ToAdd(DisabledFiltersToAdd, p);
      defaults.(
        enabled := if |enabledToAdd| > 0 then Extend(CurrentEnabled(p), enabledToAdd) else p.enabled,
        disabled := if |disabledToAdd| > 0 then Extend(CurrentDisabled(p), disabledToAdd) else p.disabled,
        migrated := true)
  }

  /** The merged list holds no separator inside an element and is never empty. */
  lemma MergedWellFormed(defaultValue: string, additions: seq<string>)
    requires |additions| >= 1 && SepFree(additions)
    ensures var m := MergedDefault(defaultValue, additions);
            |m| >= 1 && NoDup(m) && SepFree(m) && forall y :: y in additions ==> y in m
  {
    var m := MergedDefault(defaultValue, additions);
    assert additions[0] in m;
    forall i | 0 <= i < |m|
      ensures Sep !in m[i]
    {
      if m[i] in additions {
        var j :| 0 <= j < |additions| && additions[j] == m[i];
      } else {
        var j :| 0 <= j < |Split(defaultValue, Sep)| && Split(defaultValue, Sep)[j] == m[i];
      }
    }
  }

  /** Both new defaults are the merged lists, whether or not the migration
      already ran. */
  lemma NewDefaultsAreMerged(p: TypeFilterPrefs)
    ensures var r := SetTypeFilterPreferences(p);
            Fields(r.defaultEnabled, Sep) == MergedDefault(p.defaultEnabled, EnabledFiltersToAdd)
            && Fields(r.defaultDisabled, Sep) == MergedDefault(p.defaultDisabled, DisabledFiltersToAdd)
  {
    AdditionsWellFormed();
  }

  /** A rewritten enabled value holds the cleaned current filters and then
      the missing additions, none of them twice. */
  lemma RewrittenEnabled(p: TypeFilterPrefs)
    requires !p.migrated && |ToAdd(EnabledFiltersToAdd, p)| > 0
    ensures var cur := CurrentEnabled(p);
            var add := ToAdd(EnabledFiltersToAdd, p);
            Fields(SetTypeFilterPreferences(p).enabled, Sep)
            == (if |cur| == 0 then [""] else cur) + add
    ensures |CurrentEnabled(p)| > 0 ==> NoDup(Fields(SetTypeFilterPreferences(p).enabled, Sep))
  {
    AdditionsWellFormed();
    var cur := CurrentEnabled(p);
    var add := ToAdd(EnabledFiltersToAdd, p);
    if |cur| > 0 {
      DisjointConcatNoDup(cur, add);
    }
  }

  /** A rewritten disabled value holds the current disabled filters and then
      the missing additions, none of them twice. */
  lemma RewrittenDisabled(p: TypeFilterPrefs)
    requires !p.migrated && |ToAdd(DisabledFiltersToAdd, p)| > 0
    ensures var cur := CurrentDisabled(p);
            var add := ToAdd(DisabledFiltersToAdd, p);
            Fields(SetTypeFilterPreferences(p).disabled, Sep)
            == (if |cur| == 0 then [""] else cur) + add
    ensures |CurrentDisabled(p)| > 0 ==> NoDup(Fields(SetTypeFilterPreferences(p).disabled, Sep))
  {
    AdditionsWellFormed();
    var cur := CurrentDisabled(p);
    var add := ToAdd(DisabledFiltersToAdd, p);
    if |cur| > 0 {
      DisjointConcatNoDup(cur, add);
    }
  }

  lemma DisjointConcatNoDup(a: seq<string>, b: seq<string>)
    requires NoDup(a) && NoDup(b)
    requires forall x :: x in b ==> x !in a
    ensures NoDup(a + b)
  {
    var ab := a + b;
    forall i, j | 0 <= i < j < |ab|
      ensures ab[i] != ab[j]
    {
      if i < |a| && j >= |a| {
        assert ab[j] == b[j - |a|];
        assert ab[j] in b;
      }
    }
  }

  /** The enabled value after a first migration still holds every cleaned
      current filter and every enabled addition that was missing. */
  lemma EnabledKeeps(p: TypeFilterPrefs)
    requires !p.migrated
    ensures var f := Fields(SetTypeFilterPreferences(p).enabled, Sep);
            forall x :: x in CurrentEnabled(p) || x in ToAdd(EnabledFiltersToAdd, p) ==> x in f
  {
    if |ToAdd(EnabledFiltersToAdd, p)| > 0 {
      RewrittenEnabled(p);
    } else {
      SplitIsFieldsPrefix(p.enabled, Sep);
    }
  }

  /** The disabled value after a first migration still holds every current
      disabled filter and every disabled addition that was missing. */
  lemma DisabledKeeps(p: TypeFilterPrefs)
    requires !p.migrated
    ensures var f := Fields(SetTypeFilterPreferences(p).disabled, Sep);
            forall x :: x in CurrentDisabled(p) || x in ToAdd(DisabledFiltersToAdd, p) ==> x in f
  {
    if |ToAdd(DisabledFiltersToAdd, p)| > 0 {
      RewrittenDisabled(p);
    } else {
      SplitIsFieldsPrefix(p.disabled, Sep);
    }
  }

  /** After a first migration every built-in filter, enabled or disabled, is
      a field of one of the two current values: nothing is lost, whichever
      list the user had put it in. */
  lemma AdditionsPlaced(p: TypeFilterPrefs)
    requires !p.migrated
    ensures var r := SetTypeFilterPreferences(p);
            forall x :: x in EnabledFiltersToAdd || x in DisabledFiltersToAdd ==>
              x in Fields(r.enabled, Sep) || x in Fields(r.disabled, Sep)
  {
    EnabledKeeps(p);
    DisabledKeeps(p);
  }

  /** Running the migration a second time leaves both current values as the
      first run wrote them. */
  lemma SecondRunKeepsCurrentValues(p: TypeFilterPrefs)
    ensures var r1 := SetTypeFilterPreferences(p);
            var r2 := SetTypeFilterPreferences(r1);
            r2.enabled == r1.enabled && r2.disabled == r1.disabled && r2.migrated
  {
  }

  /** A non-empty filter list whose last filter is not empty. */
  predicate EndsInFilter(m: seq<string>) {
    |m| >= 1 && m[|m| - 1] != ""
  }

  /** Merging the additions into an already merged default changes nothing,
      provided the merged list does not end in an empty filter (it does not
      whenever some addition was missing). */
  lemma MergeSettles(defaultValue: string, additions: seq<string>)
    requires |additions| >= 1 && SepFree(additions)
    requires EndsInFilter(MergedDefault(defaultValue, additions))
    ensures var m := MergedDefault(defaultValue, additions);
            MergedDefault(Join(m, Sep), additions) == m
  {
    var m := MergedDefault(defaultValue, additions);
    MergedWellFormed(defaultValue, additions);
    SettledMerge(m, additions);
  }

  /** Merging additions that are all present into a list read back from
      its own join gives the list. */
  lemma SettledMerge(m: seq<string>, additions: seq<string>)
    requires EndsInFilter(m)
    requires NoDup(m) && SepFree(m)
    requires forall y :: y in additions ==> y in m
    ensures AddAll(FilterSet(Join(m, Sep)), additions) == m
  {
    FilterSetOfJoin(m);
    AddAllPresent(m, additions);
  }

  /** Reading back a joined duplicate-free filter list gives the list. */
  lemma FilterSetOfJoin(m: seq<string>)
    requires EndsInFilter(m)
    requires NoDup(m) && SepFree(m)
    ensures FilterSet(Join(m, Sep)) == m
  {
    assert forall i :: 0 <= i < |m| ==> Sep !in m[i] by {
      forall i | 0 <= i < |m|
        ensures Sep !in m[i]
      {
        assert m[i] in m;
      }
    }
    SplitJoin(m, Sep);
    DedupOfDistinct(m);
  }

  /** Adding elements that are all present changes nothing. */
  lemma {:induction false} AddAllPresent(xs: seq<string>, ys: seq<string>)
    requires forall y :: y in ys ==> y in xs
    ensures AddAll(xs, ys) == xs
    decreases |ys|
  {
    if |ys| > 0 {
      assert ys[0] in xs;
      assert Add(xs, ys[0]) == xs;
      AddAllPresent(xs, ys[1..]);
    }
  }

  /** With settled defaults (see `MergeSettles`), a second run is a no-op. */
  lemma SecondRunIsIdentity(p: TypeFilterPrefs)
    requires EndsInFilter(MergedDefault(p.defaultEnabled, EnabledFiltersToAdd))
    requires EndsInFilter(MergedDefault(p.defaultDisabled, DisabledFiltersToAdd))
    ensures var r1 := SetTypeFilterPreferences(p);
            SetTypeFilterPreferences(r1) == r1
  {
    AdditionsWellFormed();
    MergeSettles(p.defaultEnabled, EnabledFiltersToAdd);
    MergeSettles(p.defaultDisabled, DisabledFiltersToAdd);
  }

  /** Every addition is a filter of the new default read through `split`. */
  lemma NewDefaultHoldsAdditions(defaultValue: string, additions: seq<string>)
    requires |additions| >= 1 && SepFree(additions)
    requires forall x :: x in additions ==> x != ""
    ensures forall x :: x in additions ==> x in Split(NewDefault(defaultValue, additions), Sep)
  {
    var v := NewDefault(defaultValue, additions);
    MergedWellFormed(defaultValue, additions);
    SplitIsFieldsPrefix(v, Sep);
    var f := Fields(v, Sep);
    assert f == MergedDefault(defaultValue, additions);
    var r := Split(v, Sep);
    forall x | x in additions
      ensures x in r
    {
      assert x in f;
      NonEmptyInPrefix(f, r, x);
    }
  }

  /** A prefix that leaves out only empty strings keeps every non-empty one. */
  lemma NonEmptyInPrefix(f: seq<string>, r: seq<string>, x: string)
    requires |r| <= |f| && r == f[..|r|]
    requires forall i :: |r| <= i < |f| ==> f[i] == ""
    requires x in f && x != ""
    ensures x in r
  {
    var i :| 0 <= i < |f| && f[i] == x;
    assert r[i] == f[i];
  }

  /** Nothing is left to add to a list when every addition is already in
      the current enabled or disabled filters. */
  lemma NothingToAdd(additions: seq<string>, p: TypeFilterPrefs)
    requires forall x :: x in additions ==> x in CurrentEnabled(p) || x in CurrentDisabled(p)
    ensures ToAdd(additions, p) == []
  {
    EmptyIffNoElement(ToAdd(additions, p));
  }

  /** An enabled preference the user never set reads as its new default,
      which already holds every filter to add to the enabled list. */
  lemma UnsetEnabledNeedsNothing(p: TypeFilterPrefs)
    requires p.enabled == NewDefault(p.defaultEnabled, EnabledFiltersToAdd)
    ensures ToAdd(EnabledFiltersToAdd, p) == []
  {
    AdditionsWellFormed();
    AdditionsNonEmpty();
    NewDefaultHoldsAdditions(p.defaultEnabled, EnabledFiltersToAdd);
    assert forall x :: x in EnabledFiltersToAdd ==> x in Split(p.enabled, Sep);
    NothingToAdd(EnabledFiltersToAdd, p);
  }

  /** The same for a disabled preference the user never set. */
  lemma UnsetDisabledNeedsNothing(p: TypeFilterPrefs)
    requires p.disabled == NewDefault(p.defaultDisabled, DisabledFiltersToAdd)
    ensures ToAdd(DisabledFiltersToAdd, p) == []
  {
    AdditionsWellFormed();
    AdditionsNonEmpty();
    NewDefaultHoldsAdditions(p.defaultDisabled, DisabledFiltersToAdd);
    assert forall x :: x in DisabledFiltersToAdd ==> x in Split(p.disabled, Sep);
    NothingToAdd(DisabledFiltersToAdd, p);
  }

  /** A preference the user never set reads as its new default, so the
      migration leaves it alone. */
  lemma UnsetPreferencesUnchanged(p: TypeFilterPrefs)
    ensures p.enabled == NewDefault(p.defaultEnabled, EnabledFiltersToAdd) ==>
              SetTypeFilterPreferences(p).enabled == p.enabled
    ensures p.disabled == NewDefault(p.defaultDisabled, DisabledFiltersToAdd) ==>
              SetTypeFilterPreferences(p).disabled == p.disabled
  {
    if p.enabled == NewDefault(p.defaultEnabled, EnabledFiltersToAdd) {
      UnsetEnabledNeedsNothing(p);
    }
    if p.disabled == NewDefault(p.defaultDisabled, DisabledFiltersToAdd) {
      UnsetDisabledNeedsNothing(p);
    }
  }
}

=== FILE: working_sets.dfy ===
/** `JavaPlugin.createOrUpdateWorkingSet`: makes sure a working set named
    `name` carries the label `caption` and `id`, and drops the set it replaces under
    `oldname` when that one has the same id. The workbench's working-set
    manager is a map from working-set name to working set. */
module JavaPluginWorkingSets {
  import opened Wrappers

  datatype WorkingSet = WorkingSet(caption: string, id: string, elements: seq<string>)

  type Manager = map<string, WorkingSet>

  /** The error logged when `name` is taken by a set with another id. */
  function FoundOtherIdMessage(name: string, existingId: string): string
  {
    "found existing workingset with name=\"" + name + "\" but id=\"" + existingId + "\""
  }

  /** The create-or-update step on its own: the manager afterwards and the
      error logged, if any. */
  function CreateOrUpdate(m: Manager, name: string, caption: string, id: string): (r: (Manager, Option<string>))
    ensures r.1.Some? <==> name in m && m[name].id != id
    ensures r.1.Some? ==> r.1.value == FoundOtherIdMessage(name, m[name].id) && r.0 == m
    ensures r.1.None? ==> name in r.0 && r.0[name].caption == caption && r.0[name].id == id
    ensures r.1.None? && name !in m ==> r.0[name].elements == []
    ensures r.1.None? && name in m ==> r.0[name].elements == m[name].elements
    ensures r.0.Keys == m.Keys + {name}
    ensures forall n :: n in m && n != name ==> r.0[n] == m[n]
  {
    if name !in m then
      (m[name := WorkingSet(caption, id, [])], None)
    else if m[name].id == id then
      (m[name := m[name].(caption := caption)], None)
    else
      (m, Some(FoundOtherIdMessage(name, m[name].id)))
  }

  /** `createOrUpdateWorkingSet(name, oldname, caption, id)`. The old set is
      looked up after the create-or-update step, so with `oldname == name`
      the set just created or updated is the one removed. */
  function CreateOrUpdateWorkingSet(m: Manager, name: string, oldname: string, caption: string, id: string)
    : (r: (Manager, Option<string>))
    ensures r.1.Some? <==> name in m && m[name].id != id
    ensures r.1.Some? ==> r.1.value == FoundOtherIdMessage(name, m[name].id)
    ensures forall n :: n != name && n != oldname ==> (n in r.0 <==> n in m) && (n in m ==> r.0[n] == m[n])
    ensures oldname != name ==> (oldname in r.0 <==> oldname in m && m[oldname].id != id)
    ensures oldname != name && oldname in r.0 ==> r.0[oldname] == m[oldname]
    ensures oldname != name && r.1.None? ==> name in r.0 && r.0[name].caption == caption && r.0[name].id == id
    ensures oldname == name ==> (name in r.0 <==> r.1.Some?)
    ensures r.1.Some? && name in r.0 ==> r.0[name] == m[name]
  {
    var step := CreateOrUpdate(m, name, caption, id);
    var m1 := step.0;
    var m2 := if oldname in m1 && m1[oldname].id == id then m1 - {oldname} else m1;
    (m2, step.1)
  }

  /** Calling it again with the same arguments leaves the working sets as
      they are and logs the same error again, if any. */
  lemma CreateOrUpdateIdempotent(m: Manager, name: string, oldname: string, caption: string, id: string)
    ensures var r := CreateOrUpdateWorkingSet(m, name, oldname, caption, id);
            CreateOrUpdateWorkingSet(r.0, name, oldname, caption, id) == r
  {
    var r := CreateOrUpdateWorkingSet(m, name, oldname, caption, id);
    var r2 := CreateOrUpdateWorkingSet(r.0, name, oldname, caption, id);
    if r.1.Some? {
      // The set under `name` is foreign; the old one is already gone.
      assert r2.0 == r.0;
    } else if name == oldname {
      // The set under `name` was created or updated, then removed.
      assert name !in r.0;
      assert r2.0 == r.0;
    } else {
      assert r.0[name].caption == caption && r.0[name].id == id;
      assert r.0[name := r.0[name].(caption := caption)] == r.0;
      assert r2.0 == r.0;
    }
  }

  /** The renaming use: with a set of id `id` under the old name only, the
      call moves it to the new name with the new caption, its elements left
      behind (the new set starts empty). */
  lemma RenameMovesSet(m: Manager, name: string, oldname: string, caption: string, id: string)
    requires name != oldname && name !in m
    requires oldname in m && m[oldname].id == id
    ensures var r := CreateOrUpdateWorkingSet(m, name, oldname, caption, id);
            r.1.None? && oldname !in r.0 && r.0[name] == WorkingSet(caption, id, []) &&
            r.0.Keys == m.Keys - {oldname} + {name}
  {
  }
}

=== FILE: wrappers.dfy ===
/** Optional values, standing in for Java's nullable references and for
    calls that either return a value or throw a checked exception. */
module Wrappers {

  datatype Option<+T> = None | Some(value: T)
}
